=== FILE: README.md ===
# texture core in Dafny

A model of the deterministic core of the *texture* avatar and chat back end.
The model covers four pieces.

- **ComfyUI job pipeline.** This is `comfy_service.py`. It has five parts:
  - the three-slot workflow patch (`get_workflow`);
  - the websocket completion detector and the `/history` output selector (`generate_img`);
  - the pose catalog (`defined_poses`);
  - the pose orchestrator (`generate_avatar_with_poses`), which uploads a reference image and runs a job per stage and collects base64 images keyed by label.
- **Chat bookkeeping.** This is `chat_service.py`.
  - A conversation is a table of messages kept in timestamp order (`models.py`).
  - Messages are stored by `add_message`, which checks the role, cuts the content at the first `$` and trims the table to `max_history_length` while keeping system messages.
  - `clear_history` and `get_history` are modelled too.
  - `generate_response` sends the history to the language model, extracts the answer from the server's envelope and stores it.
- **LLM payload builder.** This is `llm_service.py`.
  - `create_chat_completion` is modelled with its unconditional `ValueError` when the first message is not a system message.
  - It duplicates each system message, reversed, at the head of the payload, and mutates the caller's system messages in place.
  - It classifies the HTTP reply into `False`, the re-serialised JSON text, or an exception.
- **Data-URI framing.** This is `inpaint.py`: the `data:image/<fmt>;base64,` wrap and strip. Base64 follows section 4 of RFC 4648.

Modules follow the source:

- `Workflow`, `Monitor`, `Outputs`, `ComfyClient` and `Poses` cover `comfy_service.py`.
- `Chat` covers `chat_service.py`.
- `Llm` covers `llm_service.py`.
- `DataUri` and `Base64` cover `inpaint.py`.
- `Strings`, `JsonValues` and `Results` hold the Python built-ins the core relies on:
  - `in` on strings, `split`, `sorted`, `lower`, `os.path.basename` and `os.path.join`;
  - JSON values with `dict.get` and truthiness;
  - exceptions as `Err`, with a separate `Stalled` outcome for a loop that never ends.

Every piece of I/O is a parameter:

- the engine (`ComfyClient.Engine`): submit, event stream, history, image view, upload;
- the pose directory listing and the workflow template;
- the LLM server (`send`) and the JSON text codec (`Codec`);
- the clock: each stored row is given its timestamp;
- the environment settings.

Exceptions are `Err` values. An operation that raises part-way also returns what it had done by then:

- for the orchestrator, the log of engine requests;
- for the chat, the table, because a failed trim raises after the new row was stored.

## Model

| member | source | states |
|---|---|---|
| Workflow.SetInput | texture-app/backend/src/ai_proxy/services/comfy_service.py:45-47 | `wf[node]["inputs"][key] = value` succeeds exactly when the node exists with an `inputs` dict. A missing node raises `KeyError(node)`. The written value reads back, and every other node, field and input is unchanged. |
| Workflow.GetWorkflow | texture-app/backend/src/ai_proxy/services/comfy_service.py:41-49 | The patch succeeds exactly when nodes 7, 9 and 10 all have inputs. The patched workflow reads back the positive prompt, the negative prompt and the reference image at their slots. |
| Workflow.GetWorkflowErrors | texture-app/backend/src/ai_proxy/services/comfy_service.py:25-29 | A template missing node 7, 9 or 10 raises `KeyError` naming the first missing node, in assignment order. |
| Workflow.GetWorkflowKeepsTemplate | texture-app/backend/src/ai_proxy/services/comfy_service.py:41-49 | Every node other than 7, 9 and 10 is unchanged. In those three nodes, only the written input key differs. |
| Workflow.LastPatchWins | texture-app/backend/src/ai_proxy/services/comfy_service.py:45-47 | Patching an already patched workflow gives the same result as patching the template with the later parameters. |
| Workflow.PatchIdempotent | texture-app/backend/src/ai_proxy/services/comfy_service.py:45-47 | Patching twice with the same parameters is the same as patching once. |
| Monitor.StepEvent | texture-app/backend/src/ai_proxy/services/comfy_service.py:68-72 | An event ends the wait exactly when it is a `status` event with `queue_remaining == 0`. It raises exactly when a field the branch reads is missing. |
| Monitor.ExecutingEvent | texture-app/backend/src/ai_proxy/services/comfy_service.py:68-69 | An `executing` event never ends the wait. |
| Monitor.StatusEvent | texture-app/backend/src/ai_proxy/services/comfy_service.py:70-72 | A status event ends the wait exactly when its queue is empty. |
| Monitor.AwaitFrom | texture-app/backend/src/ai_proxy/services/comfy_service.py:63-72 | The loop stops at an idle event that every earlier event left pending. It raises a message's error on an unreadable event preceded only by pending ones. It raises `ConnectionClosed` exactly when every event is pending and the server then closes the socket, and it waits forever exactly when every event is pending and the socket stays open. |
| Monitor.Await | texture-app/backend/src/ai_proxy/services/comfy_service.py:63-72 | The same as `AwaitFrom`, for the whole stream: the stop, the raise at an unreadable event, the raise on a closed socket and the endless wait on an open one. There is no job filter and no timeout. |
| Monitor.AwaitStopsAtFirstIdle | texture-app/backend/src/ai_proxy/services/comfy_service.py:64-72 | The converse: the loop stops at the first idle event. |
| Monitor.AwaitPrefix | texture-app/backend/src/ai_proxy/services/comfy_service.py:64-72 | Events after the one that stops the loop are never read. While the loop waits, it goes on with whatever the server sends next, messages or a close. |
| Monitor.ProgressThenIdle | texture-app/backend/src/ai_proxy/services/comfy_service.py:63-72 | Two progress events followed by an empty queue stop at the third event, whatever follows. Progress alone waits forever on an open socket and raises `ConnectionClosed` when the server closes it. |
| Outputs.FirstMatch | texture-app/backend/src/ai_proxy/services/comfy_service.py:83-85 | Returns the first position whose file name contains the text, or none exactly when no name contains it. |
| Outputs.SelectOutputIsFirstMatch | texture-app/backend/src/ai_proxy/services/comfy_service.py:81-92 | The selected file is the first name containing the prefix, taken over the images of the nodes that have `images`, in manifest order and then list order. |
| Outputs.SubstringNotPrefix | texture-app/backend/src/ai_proxy/services/comfy_service.py:85 | `ComfyUI_no_bg_001.png` is selected for `no_bg`: containment, not prefix. |
| ComfyClient.PromptId | texture-app/backend/src/ai_proxy/services/comfy_service.py:55-57 | The id is the reply's `prompt_id` value, of any JSON type. A missing key raises `KeyError`. |
| ComfyClient.Entry | texture-app/backend/src/ai_proxy/services/comfy_service.py:81 | `history_data[prompt_id]` gives the entry for a string id it holds and `KeyError` for an absent one. A list or dict id raises `TypeError`. Any other id raises `KeyError`, because the manifest's keys are strings. |
| ComfyClient.JobOutputs | texture-app/backend/src/ai_proxy/services/comfy_service.py:51-81 | The job's output nodes are found only after a submission with an id, a completed wait and a history holding the id. Each failure is raised as is: a failed submission, a reply without `prompt_id`, an error of the wait such as a closed socket, and a failed history request. A wait that never ends is passed on as a wait that never ends. |
| ComfyClient.NumericIdWaits | texture-app/backend/src/ai_proxy/services/comfy_service.py:57-81 | With a numeric `prompt_id`, the job still waits for the queue to empty. It then fails at the history lookup. |
| ComfyClient.GenerateImg | texture-app/backend/src/ai_proxy/services/comfy_service.py:51-92 | Returns nothing exactly when no candidate name contains the prefix. Otherwise it returns the `/view` bytes of the first matching name, and a failed or endless `/view` request is passed on. A failure or endless wait of the job is passed on as is. |
| Poses.PositivePrompt | texture-app/backend/src/ai_proxy/services/comfy_service.py:177-179 | The decorated prompt is the given prompt followed by the suffix, so it is never shorter than the suffix. |
| Poses.MissingPrompt | texture-app/backend/src/ai_proxy/services/comfy_service.py:186-188 | The missing-prompt dictionary is returned exactly when both the prompt and the suffix are empty. The source's suffix is not empty, so the branch is unreachable. |
| Poses.GeneratePoses | texture-app/backend/src/ai_proxy/services/comfy_service.py:177-188 | With a non-empty suffix, the call is the full run with the decorated prompt. |
| Poses.EncodeImage | texture-app/backend/src/ai_proxy/services/comfy_service.py:213 | Encoding `None` raises `TypeError`. Encoded bytes decode back to themselves. |
| Poses.GenerateEncoded | texture-app/backend/src/ai_proxy/services/comfy_service.py:209-213 | A stage's job succeeds exactly when `generate_img` found an image, and its text is that image's base64. |
| Poses.UploadAndGenerate | texture-app/backend/src/ai_proxy/services/comfy_service.py:207-209 | The reference file is uploaded first. Only if the upload succeeds is the job run, on a workflow whose reference slot is the file's basename. |
| Poses.InitialStageAt | texture-app/backend/src/ai_proxy/services/comfy_service.py:199-214 | The initial stage builds the workflow, then uploads and generates. A failed patch sends nothing. A success ran exactly an upload then a job. |
| Poses.EngineInitialImageWith | texture-app/backend/src/ai_proxy/services/comfy_service.py:199-214 | Run against an engine with a non-empty suffix, a completed call holds under `initial_pose` the base64 of the bytes `generate_img` returns for the template patched with the decorated prompts and `pose1.jpg`. |
| Poses.SuffixNonEmpty | texture-app/backend/src/ai_proxy/services/comfy_service.py:179-188 | The style suffix the source appends is not empty, so `MissingPrompt`'s condition never holds for the source's texts. |
| Poses.PoseStage | texture-app/backend/src/ai_proxy/services/comfy_service.py:228-244 | A pose stage uploads `dir/file` first, and generates with the file's name as reference. |
| Poses.PoseFiles | texture-app/backend/src/ai_proxy/services/comfy_service.py:218 | The looped files are sorted and are exactly the listing's `.jpg` names, each as many times as it is listed. |
| Poses.CatalogLabels | texture-app/backend/src/ai_proxy/services/comfy_service.py:101-106 | The catalog's labels are pairwise distinct and differ from `initial_pose` and `error`. |
| Poses.RunStagesSucceeds | texture-app/backend/src/ai_proxy/services/comfy_service.py:220-245 | The loop completes exactly when every catalogued file's stage succeeds. The first failure aborts with no dictionary. |
| Poses.RunStagesKeys | texture-app/backend/src/ai_proxy/services/comfy_service.py:220-245 | A completed loop's keys are exactly the labels of the catalogued files. |
| Poses.RunStagesValues | texture-app/backend/src/ai_proxy/services/comfy_service.py:245 | Each catalogued file's label holds that file's image. No entry is overwritten. |
| Poses.RunStagesLog | texture-app/backend/src/ai_proxy/services/comfy_service.py:228-240 | In the loop's request log, every job is preceded by the upload of its reference file. |
| Poses.RunStagesUploads | texture-app/backend/src/ai_proxy/services/comfy_service.py:220-229 | A completed loop uploads one file per catalogued file, in sorted order. |
| Poses.RunStagesReferences | texture-app/backend/src/ai_proxy/services/comfy_service.py:232-239 | A completed loop's jobs use the catalogued files' references, in sorted order. |
| Poses.AvatarSucceeds | texture-app/backend/src/ai_proxy/services/comfy_service.py:160-249 | The run returns a dictionary exactly when the initial stage and every catalogued `.jpg` stage succeed. |
| Poses.AvatarKeys | texture-app/backend/src/ai_proxy/services/comfy_service.py:214-245 | The dictionary's keys are exactly `initial_pose` plus the labels of the listed catalogued `.jpg` files. It never holds `error`. |
| Poses.AvatarInitialValue | texture-app/backend/src/ai_proxy/services/comfy_service.py:209-214 | `initial_pose` holds the initial stage's image. |
| Poses.AvatarPoseValues | texture-app/backend/src/ai_proxy/services/comfy_service.py:240-245 | Each listed catalogued pose's label holds that pose stage's image. |
| Poses.AvatarUploadsFirst | texture-app/backend/src/ai_proxy/services/comfy_service.py:202-240 | In the whole run, every job is preceded by the upload of the file its reference names. |
| Poses.AvatarOrder | texture-app/backend/src/ai_proxy/services/comfy_service.py:202-240 | A completed run uploads `pose1.jpg` and then the pose files in sorted order. Its jobs reference `pose1.jpg` and then those files, in the same order. |
| Poses.InitialReference | texture-app/backend/src/ai_proxy/services/comfy_service.py:96 | The initial pose's basename is `pose1.jpg`. |
| Chat.NewChatBot | texture-app/backend/src/ai_proxy/services/chat_service.py:38-63 | A new conversation holds exactly one system row with the configured prompt. It raises `ValueError` when no prompt is set or the prompt is empty. The limit defaults to 20. |
| Chat.Insert | texture-app/backend/src/ai_proxy/models.py:30-31 | The table gains exactly the new row: as a multiset, the old rows plus the new one. When no row is newer than it, the row is appended at the end. |
| Chat.InsertChronological | texture-app/backend/src/ai_proxy/models.py:30-31 | Storing a row keeps the table in timestamp order. |
| Chat.Stored | texture-app/backend/src/ai_proxy/services/chat_service.py:78-82 | Stored content is the content up to the first `$`, so it never contains `$`. It is the whole content when there is no `$`. |
| Chat.AddMessage | texture-app/backend/src/ai_proxy/services/chat_service.py:65-107 | An invalid role raises `ValueError` and stores nothing. Otherwise the row is stored, and the trim raises exactly when there are more system rows than the limit. System rows are always kept. A successful call leaves at most the limit. No row appears that was not there or stored. Timestamp order is kept. |
| Chat.AddMessageAppends | texture-app/backend/src/ai_proxy/services/chat_service.py:92-94 | Within the limit, the table is the old table followed by the new row, and nothing is deleted. |
| Chat.AddMessageKeepsRecent | texture-app/backend/src/ai_proxy/services/chat_service.py:94-107 | Over the limit with system rows, the non-system rows kept are the most recent `max - #system`. With no system rows, the table is the `max` most recent rows. |
| Chat.Trim | texture-app/backend/src/ai_proxy/services/chat_service.py:94-107 | Trimming keeps every system row and, in table order, the most recent others up to the limit. Without system rows, it keeps the most recent `max` rows. With more system rows than the limit, it raises and deletes nothing. |
| Chat.KeepRecentOthers | texture-app/backend/src/ai_proxy/services/chat_service.py:101-103 | Keeping the ids of all system rows plus the newest `k` others leaves exactly the newest `k` others. |
| Chat.KeepRecentSystems | texture-app/backend/src/ai_proxy/services/chat_service.py:101-103 | The same deletion keeps every system row. |
| Chat.AddMessageKeepsPromptFirst | texture-app/backend/src/ai_proxy/services/chat_service.py:65-107 | Storing a message keeps a conversation's system prompt as its first row, whatever the outcome. |
| Chat.ClearHistory | texture-app/backend/src/ai_proxy/services/chat_service.py:118-130 | Keeping the system prompt leaves exactly the system rows, in order. Otherwise the table is empty. |
| Chat.DeleteOthers | texture-app/backend/src/ai_proxy/services/chat_service.py:127 | Deleting the non-system rows from the table leaves its system rows. |
| Chat.ClearHistoryIdempotent | texture-app/backend/src/ai_proxy/services/chat_service.py:118-130 | Clearing twice is the same as clearing once, in both modes. |
| Chat.History | texture-app/backend/src/ai_proxy/services/chat_service.py:109-116 | The history has one (role, content) pair per row, in table order. |
| Chat.HistoryOfSystemRows | texture-app/backend/src/ai_proxy/services/chat_service.py:109-130 | The history after `clear_history()` is the system messages of the history before. |
| Chat.Parsed | texture-app/backend/src/ai_proxy/services/chat_service.py:181-186 | `False` stays `False`. A completion's text is parsed back, or kept as text when it does not parse. |
| Chat.Received | texture-app/backend/src/ai_proxy/services/chat_service.py:188-193 | The answer is `received_data.answer` of a dict response whose `received_data` is a dict holding `answer`. In every other case it is `""`: a response that is not a dict, a missing or non-dict `received_data`, or a missing `answer`. |
| Chat.Fallback | texture-app/backend/src/ai_proxy/services/chat_service.py:195-198 | The old extraction raises `AttributeError` on a non-dict response, and gives `""` when there are no `choices`. |
| Chat.ExtractAnswer | texture-app/backend/src/ai_proxy/services/chat_service.py:188-198 | A truthy `received_data.answer` is the answer. Otherwise the fallback extraction's result is the result: `AttributeError` for a response that is not a dict, and `""` when there are no `choices`. |
| Chat.EnvelopeAnswer | texture/backend/llm/llm_server.py:38-42 | From the server's envelope, the answer is extracted when it is truthy, and `""` otherwise. |
| Chat.RefusedRaises | texture-app/backend/src/ai_proxy/services/chat_service.py:195-198 | A refused completion (`False`) raises in the fallback. |
| Chat.Details | texture-app/backend/src/ai_proxy/services/chat_service.py:148-152 | The object details exist exactly when the message has a `$`. They are the text after the first `$`, up to the next `$` when there is one, and up to the end otherwise. |
| Chat.UserStep | texture-app/backend/src/ai_proxy/services/chat_service.py:148-161 | Within the limit, the user's message is stored as its head before the `$`. The resulting history passes the service's system-message check. |
| Chat.RespondAddsOnlyItsRows | texture-app/backend/src/ai_proxy/services/chat_service.py:132-208 | A turn adds no row but the user's and assistant rows of its own time. A truthy answer returned is a string from a sent request. |
| Chat.RespondStoresAnswer | texture-app/backend/src/ai_proxy/services/chat_service.py:155-204 | For an envelope with a non-empty answer, the turn returns the answer and sends the history with the user's message. It stores exactly the user row and one assistant row. |
| Chat.RespondEmptyAnswer | texture-app/backend/src/ai_proxy/services/chat_service.py:196-204 | An empty answer is returned, and only the user's message is stored. |
| Chat.RespondRefusedRaises | texture-app/backend/src/ai_proxy/services/chat_service.py:164-198 | A non-200 reply makes the turn raise `AttributeError` after the user's message was stored and sent. |
| Llm.Annotated | texture-app/backend/src/ai_proxy/services/llm_service.py:88-90 | After the call, each system message has the objects note appended. Other messages are untouched. |
| Llm.CopiesReversed | texture-app/backend/src/ai_proxy/services/llm_service.py:88-91 | The inserted copies are the annotated system messages in reverse order of occurrence. |
| Llm.BuildPayload | texture-app/backend/src/ai_proxy/services/llm_service.py:69-91 | The comprehension-then-insert loop builds exactly `Payload` and leaves the messages as `Annotated`. |
| Llm.PayloadShape | texture-app/backend/src/ai_proxy/services/llm_service.py:69-91 | The payload has `len(messages) + #system` entries. The last `len(messages)` are the pre-call messages. Each leading entry is a system copy with the note, newest first. |
| Llm.Complete | texture-app/backend/src/ai_proxy/services/llm_service.py:80-116 | It raises `ValueError` without sending exactly when the effective system prompt is non-empty and the first message is not a system message. Otherwise it sends the payload, annotates the messages and classifies the reply. |
| Llm.CallUpdatesSystemMessages | texture-app/backend/src/ai_proxy/services/llm_service.py:88-91 | A call that passes the check sends one entry per message plus one per system message, and mutates the system messages only. |
| Llm.DefaultServiceRejectsUserMessage | texture-app/backend/src/ai_proxy/services/llm_service.py:80-87 | A service with the built-in or a configured default prompt raises for the single user message `generate_text` sends. |
| Llm.LeadingSystemPasses | texture-app/backend/src/ai_proxy/services/llm_service.py:83 | A list led by a system message always passes the check. |
| Llm.CompletionReadsBack | texture-app/backend/src/ai_proxy/services/llm_service.py:105-116 | The completion text of a 200 reply with JSON reads back, through the JSON codec, as exactly the reply's JSON. |
| DataUri.ConvertImageToBase64 | texture/backend/inpainting/inpaint.py:103-117 | The result is `data:image/`, then the lowered format, then `;`, then `base64,` and the base64 of the saved bytes. |
| DataUri.StripDataUri | texture/backend/inpainting/inpaint.py:91-92 | With `base64,` present, the text kept is what lies between its first occurrence and the next one, or the end when there is no next one. Without it, the text is unchanged. |
| DataUri.ConvertBase64ToImage | texture/backend/inpainting/inpaint.py:90-95 | Text without `base64,` is decoded whole. Decoding never waits. |
| DataUri.StripRecoversPayload | texture/backend/inpainting/inpaint.py:91-117 | Stripping a framed image gives back exactly its base64 payload when the lowered format holds no `base64,`. |
| DataUri.RoundTrip | texture/backend/inpainting/inpaint.py:91-117 | Decoding a framed image gives back the saved bytes. |
| DataUri.DefaultFraming | texture/backend/inpainting/inpaint.py:103-117 | The default format frames as `data:image/png;base64,` and reads back. |
| DataUri.BarePayload | texture/backend/inpainting/inpaint.py:91-95 | A bare base64 payload with no header decodes to its bytes. |
| Base64.Encode | texture/backend/inpainting/inpaint.py:116 | The encoding has `4 * ceil(n / 3)` characters, all from the alphabet or `=`. |
| Base64.DecodeEncode | texture/backend/inpainting/inpaint.py:95 | Decoding after encoding is the identity on every byte sequence. |
| Base64.NoComma | texture/backend/inpainting/inpaint.py:91-92 | No base64 text contains `,`. |
| Strings.SplitHead | texture-app/backend/src/ai_proxy/services/chat_service.py:78-82 | `s.split(sep)[0]` is the prefix before the first separator, or all of `s` without one. |
| Strings.SplitSecond | texture-app/backend/src/ai_proxy/services/chat_service.py:148-152 | `s.split(sep)[1]` is the text after the first separator, up to the second separator when there is one, and up to the end otherwise. |
| Strings.Sort | texture-app/backend/src/ai_proxy/services/comfy_service.py:218 | `sorted` gives an ordered permutation of its input. |
| Strings.BasenameOfTail | texture-app/backend/src/ai_proxy/services/comfy_service.py:37 | The basename of `dir/name` is `name`. |
| Strings.Join | texture-app/backend/src/ai_proxy/services/comfy_service.py:228 | Joining keeps the name's basename. |
| JsonValues.Get | texture-app/backend/src/ai_proxy/services/chat_service.py:191-198 | `.get(key, default)` works only on a dict. A missing key gives the default. |

## Behaviour of the code worth knowing

- Only a message whose `type` is neither `executing` nor `status` is skipped. A message without a `type`, an `executing` message without `data.node` and a `status` message without `queue_remaining` raise out of the wait (`Monitor.StepEvent`).
- The wait has no timeout. On an open socket it waits forever for an idle status message (`Stalled` in `Monitor.Await`). When the server closes the socket first, `recv` raises `ConnectionClosed`.
- The submission's status is never checked. `prompt_id` is read from whatever JSON came back (`ComfyClient.PromptId`).

## Left out

- JsonValues.Json: numbers are integers, and floats are not modelled. `json.loads` reads `0.0` or `1e3` as a float, and a float `queue_remaining` of `0.0` also ends the wait, because `0.0 == 0` in Python. `JsonValues.First` raises `KeyError("0")` on a dict, where Python's key is the integer `0`.
- ComfyClient.JobOutputs: the history manifest arrives already parsed into output nodes with plain file names. The source's `KeyError('outputs')`, `KeyError('filename')` and the `TypeError` of an `"images": null` node are not modelled.
- Monitor.Await: events arrive as parsed JSON values. The `json.loads` failure on a websocket frame that is not JSON is not modelled. A failure to connect is not a separate error either: the closest the model comes is a stream the server closes before its first message.
- DataUri.ConvertImageToBase64: `Strings.Lower` lowers ASCII letters only. Python's `str.lower` is full Unicode and can change the length (`"İ".lower()` has two characters), so the length clause describes ASCII format names only.
- Poses.GeneratePoses: the result is a map, so the dictionary's insertion order is not kept. In the source that order is `initial_pose` first, then the labels in file order.
- Poses.GivenPrompt: the parameters are a map from strings to strings. A `None` or non-string `positive_prompt`, which the f-string renders as `None` or its `repr`, cannot be expressed.
- Llm.Complete: the messages are distinct objects. A `Message` object listed twice would get the note appended twice in the source, and this aliasing is not modelled.
- Llm.CompletionReadsBack: `json.dumps(..., indent=2)` and `json.loads` are an abstract codec. The read-back property assumes they are inverse, and the exact indented text is not modelled.
- DataUri.ConvertBase64ToImage: the decoder is strict. Python's default `b64decode` skips characters outside the alphabet and stops at the first complete padded group, so it accepts text (`"QUJD\n"`, `"QQ==QUJD"`) that the model rejects. Opening the bytes with PIL and converting to RGB is also not modelled: the result is the decoded bytes.
- Chat.Trim: without system rows, the source deletes through a sliced, ordered query set. The model keeps the intended most recent rows and does not model whether the ORM accepts that delete. Rows with equal timestamps are kept in insertion order.
- Chat.NewChatBot: only the new-conversation branch is modelled. Looking up an existing conversation by id is a database query. An unparsable `CHATBOT_MAX_HISTORY` setting, which raises in `int()`, is not modelled: the setting is given as an integer.
- Chat.Respond: a truthy answer that is not a string is modelled as a `TypeError` from the `$` test. Python raises that for numbers and booleans, but stores lists and dicts. The `temperature` argument is not modelled, because it is never sent.
- Chat.GenerateResponse: it has no contract of its own. Its properties are stated on `Respond`, with the objects note as a parameter.
- Llm.BuildPayload: `temperature` and `max_tokens` are computed for logging only and never sent, so they are not modelled.
- The network, websocket and `time.sleep` are parameters: `ComfyClient.Engine`, the LLM server's reply function, and `Poses.Backend`. Timeouts do not exist in the source and are not invented.
- The filesystem is left out: template loading, `os.listdir`, `_save_base64_to_file` and `_cleanup_temp_files`. The template and the listing are parameters.
- The Django ORM, views and urls are left out, except the timestamp ordering of messages.
- The Flask servers are left out, except the envelope shape the LLM server returns. So are the model inference in `llm.py` and `Inpainter.generate`, which are foreign model calls with floating-point arithmetic.
- `image_service.py`, `views.py`, the smoke-test scripts, logging and printing are not part of this model.

=== FILE: base64.dfy ===
/** Base64 with the standard alphabet and `=` padding, as in section 4 of
RFC 4648: what `base64.b64encode` produces and what `base64.b64decode`
accepts from it.

The decoder here accepts exactly the padded, alphabet-only texts. Python's
non-validating decoder also skips characters outside the alphabet and stops
at the first complete padded group.
 */
module Base64 {
  import opened Results

  type byte = x: int | 0 <= x < 256
  type sextet = x: int | 0 <= x < 64

  /** The 64 characters of the alphabet (table 1 of the RFC). */
  predicate IsAlphabet(c: char) {
    ('A' <= c <= 'Z') || ('a' <= c <= 'z') || ('0' <= c <= '9') || c == '+' || c == '/'
  }

  /** The character that encodes the 6-bit value `v`. */
  function CharOf(v: sextet): (c: char)
    ensures IsAlphabet(c)
  {
    if v < 26 then ('A' as int + v) as char
    else if v < 52 then ('a' as int + (v - 26)) as char
    else if v < 62 then ('0' as int + (v - 52)) as char
    else if v == 62 then '+'
    else '/'
  }

  /** The 6-bit value an alphabet character encodes. */
  function ValueOf(c: char): (v: sextet)
    requires IsAlphabet(c)
    ensures CharOf(v) == c
  {
    if 'A' <= c <= 'Z' then c as int - 'A' as int
    else if 'a' <= c <= 'z' then c as int - 'a' as int + 26
    else if '0' <= c <= '9' then c as int - '0' as int + 52
    else if c == '+' then 62
    else 63
  }

  lemma ValueOfCharOf(v: sextet)
    ensures ValueOf(CharOf(v)) == v
  {
  }

  /** Four characters for three bytes. */
  function EncodeGroup(a: byte, b: byte, c: byte): string {
    [CharOf(a / 4), CharOf((a % 4) * 16 + b / 16), CharOf((b % 16) * 4 + c / 64), CharOf(c % 64)]
  }

  /** `base64.b64encode`: each group of three bytes becomes four characters;
      a final group of one or two bytes is padded with `=`. */
  function Encode(data: seq<byte>): (r: string)
    ensures |r| == 4 * ((|data| + 2) / 3)
    ensures forall i :: 0 <= i < |r| ==> IsAlphabet(r[i]) || r[i] == '='
    decreases |data|
  {
    if |data| == 0 then ""
    else if |data| == 1 then
      [CharOf(data[0] / 4), CharOf((data[0] % 4) * 16), '=', '=']
    else if |data| == 2 then
      [CharOf(data[0] / 4), CharOf((data[0] % 4) * 16 + data[1] / 16), CharOf((data[1] % 16) * 4), '=']
    else
      assert (|data| + 2) / 3 == (|data[3..]| + 2) / 3 + 1;
      EncodeGroup(data[0], data[1], data[2]) + Encode(data[3..])
  }

  /** Three bytes from four alphabet characters. */
  function DecodeGroup(q: string): (r: Result<seq<byte>>)
    requires |q| == 4
  {
    if IsAlphabet(q[0]) && IsAlphabet(q[1]) && IsAlphabet(q[2]) && IsAlphabet(q[3]) then
      var s0, s1, s2, s3 := ValueOf(q[0]), ValueOf(q[1]), ValueOf(q[2]), ValueOf(q[3]);
      Ok([s0 * 4 + s1 / 16, (s1 % 16) * 16 + s2 / 4, (s2 % 4) * 64 + s3])
    else
      Err(DecodeError)
  }

  /** The last group, which may end in one or two `=`. */
  function DecodeLast(q: string): (r: Result<seq<byte>>)
    requires |q| == 4
  {
    if IsAlphabet(q[0]) && IsAlphabet(q[1]) && q[2] == '=' && q[3] == '=' then
      var s0, s1 := ValueOf(q[0]), ValueOf(q[1]);
      Ok([s0 * 4 + s1 / 16])
    else if IsAlphabet(q[0]) && IsAlphabet(q[1]) && IsAlphabet(q[2]) && q[3] == '=' then
      var s0, s1, s2 := ValueOf(q[0]), ValueOf(q[1]), ValueOf(q[2]);
      Ok([s0 * 4 + s1 / 16, (s1 % 16) * 16 + s2 / 4])
    else
      DecodeGroup(q)
  }

  /** A strict decoder of padded text: `DecodeError` on a length that is
      not a multiple of four, on a character outside the alphabet, or on
      padding before the last group. It agrees with `base64.b64decode` on
      every text `Encode` produces. On other text it is stricter:
      `b64decode` by default skips characters outside the alphabet and
      stops at the first complete padded group. */
  function Decode(s: string): (r: Result<seq<byte>>)
    ensures !r.Stalled?
    decreases |s|
  {
    if |s| == 0 then Ok([])
    else if |s| < 4 then Err(DecodeError)
    else if |s| == 4 then DecodeLast(s)
    else
      var head :- DecodeGroup(s[..4]);
      var tail :- Decode(s[4..]);
      Ok(head + tail)
  }

  /** Bits shifted above a 4-bit or a 2-bit field come back out of it. */
  lemma Recombine16(hi: int, lo: int)
    requires 0 <= lo < 16
    ensures (hi * 16 + lo) / 16 == hi && (hi * 16 + lo) % 16 == lo
  {
  }

  lemma Recombine4(hi: int, lo: int)
    requires 0 <= lo < 4
    ensures (hi * 4 + lo) / 4 == hi && (hi * 4 + lo) % 4 == lo
  {
  }

  lemma DecodeGroupOfEncodeGroup(a: byte, b: byte, c: byte)
    ensures DecodeGroup(EncodeGroup(a, b, c)) == Ok([a, b, c])
  {
    ValueOfCharOf(a / 4);
    ValueOfCharOf((a % 4) * 16 + b / 16);
    ValueOfCharOf((b % 16) * 4 + c / 64);
    ValueOfCharOf(c % 64);
    Recombine16(a % 4, b / 16);
    Recombine4(b % 16, c / 64);
  }

  lemma DecodeLastOfOne(a: byte)
    ensures DecodeLast([CharOf(a / 4), CharOf((a % 4) * 16), '=', '=']) == Ok([a])
  {
    ValueOfCharOf(a / 4);
    ValueOfCharOf((a % 4) * 16);
    Recombine16(a % 4, 0);
  }

  lemma DecodeLastOfTwo(a: byte, b: byte)
    ensures DecodeLast([CharOf(a / 4), CharOf((a % 4) * 16 + b / 16), CharOf((b % 16) * 4), '=']) == Ok([a, b])
  {
    var s1 := (a % 4) * 16 + b / 16;
    var s2 := (b % 16) * 4;
    ValueOfCharOf(a / 4);
    ValueOfCharOf(s1);
    ValueOfCharOf(s2);
    Recombine16(a % 4, b / 16);
    Recombine4(b % 16, 0);
    assert CharOf(s2) != '=';
  }

  /** Decoding what was encoded gives back the bytes. */
  lemma {:induction false} DecodeEncode(data: seq<byte>)
    ensures Decode(Encode(data)) == Ok(data)
    decreases |data|
  {
    if |data| <= 3 {
      DecodeEncodeShort(data);
    } else {
      DecodeEncode(data[3..]);
      DecodeGroupStep(data);
    }
  }

  /** At most one group: the padded forms and a single full group. */
  lemma DecodeEncodeShort(data: seq<byte>)
    requires |data| <= 3
    ensures Decode(Encode(data)) == Ok(data)
  {
    if |data| == 1 {
      DecodeEncodeOne(data);
    } else if |data| == 2 {
      DecodeEncodeTwo(data);
    } else if |data| == 3 {
      DecodeEncodeThree(data);
    }
  }

  lemma DecodeEncodeOne(data: seq<byte>)
    requires |data| == 1
    ensures Decode(Encode(data)) == Ok(data)
  {
    var a := data[0];
    var q := [CharOf(a / 4), CharOf((a % 4) * 16), '=', '='];
    assert Encode(data) == q;
    assert Decode(q) == DecodeLast(q);
    DecodeLastOfOne(a);
    assert data == [a];
  }

  lemma DecodeEncodeTwo(data: seq<byte>)
    requires |data| == 2
    ensures Decode(Encode(data)) == Ok(data)
  {
    var a, b := data[0], data[1];
    var q := [CharOf(a / 4), CharOf((a % 4) * 16 + b / 16), CharOf((b % 16) * 4), '='];
    assert Encode(data) == q;
    assert Decode(q) == DecodeLast(q);
    DecodeLastOfTwo(a, b);
    assert data == [a, b];
  }

  lemma DecodeEncodeThree(data: seq<byte>)
    requires |data| == 3
    ensures Decode(Encode(data)) == Ok(data)
  {
    var a, b, c := data[0], data[1], data[2];
    ThreeBytes(data);
    EncodeThree(a, b, c);
    var g := EncodeGroup(a, b, c);
    DecodeSingleGroup(g);
    DecodeGroupOfEncodeGroup(a, b, c);
  }

  /** Four characters without padding decode as a full group. */
  lemma DecodeSingleGroup(q: string)
    requires |q| == 4 && IsAlphabet(q[2]) && IsAlphabet(q[3])
    ensures Decode(q) == DecodeGroup(q)
  {
    assert q[2] != '=' && q[3] != '=';
  }

  lemma ThreeBytes(data: seq<byte>)
    requires |data| == 3
    ensures data == [data[0], data[1], data[2]]
  {
  }

  lemma EncodeThree(a: byte, b: byte, c: byte)
    ensures Encode([a, b, c]) == EncodeGroup(a, b, c)
  {
    assert [a, b, c][3..] == [];
  }

  /** One full group in front of a non-empty rest decodes group by group. */
  lemma DecodeGroupStep(data: seq<byte>)
    requires |data| > 3
    requires Decode(Encode(data[3..])) == Ok(data[3..])
    ensures Decode(Encode(data)) == Ok(data)
  {
    var x: seq<byte> := [data[0], data[1], data[2]];
    var g := EncodeGroup(data[0], data[1], data[2]);
    var rest := Encode(data[3..]);
    EncodeStep(data);
    DecodeGroupOfEncodeGroup(data[0], data[1], data[2]);
    DecodeCons(g, rest, x, data[3..]);
    SplitFirstThree(data);
  }

  lemma SplitFirstThree(data: seq<byte>)
    requires |data| >= 3
    ensures data == [data[0], data[1], data[2]] + data[3..]
  {
  }

  lemma EncodeStep(data: seq<byte>)
    requires |data| > 3
    ensures Encode(data) == EncodeGroup(data[0], data[1], data[2]) + Encode(data[3..])
    ensures |Encode(data[3..])| > 0
  {
  }

  lemma DecodeCons(g: string, rest: string, x: seq<byte>, y: seq<byte>)
    requires |g| == 4 && |rest| > 0
    requires DecodeGroup(g) == Ok(x) && Decode(rest) == Ok(y)
    ensures Decode(g + rest) == Ok(x + y)
  {
    var e := g + rest;
    assert e[..4] == g && e[4..] == rest;
  }

  /** The encoded text holds no `,`, which the data-URI framing relies on. */
  lemma NoComma(data: seq<byte>)
    ensures ',' !in Encode(data)
  {
  }
}

=== FILE: chat.dfy ===
/** `ChatBOT`: a conversation stored as a table of messages, each with a role,
a content and the time it was created, read back in timestamp order
(`Message.Meta.ordering`).

The table is a sequence kept in that order. Storing a message puts it after
every row that is not newer than it; trimming deletes rows and keeps the
order of the rest. The clock is a parameter: each call is given the time at
which the row it stores is created. The database lookup of an existing
conversation is not part of this model.
 */
module Chat {
  import opened Results
  import opened JsonValues
  import opened Strings
  import opened Llm

  /** One row of the message table. */
  datatype Row = Row(role: string, content: string, timestamp: int)

  /** What a table operation leaves behind and how it ended: a failed
      trim raises after the new row was already stored. */
  datatype Step = Step(table: seq<Row>, outcome: Result<()>)

  const SEPARATOR := "$"
  const DEFAULT_MAX_HISTORY := 20
  const NEGATIVE_INDEX := "Negative indexing is not supported."

  function InvalidRole(role: string): string {
    "Invalid role: " + role + ". Must be 'system', 'user', or 'assistant'"
  }

  function PromptNotSet(): string {
    "CHATBOT_SYSTEM_PROMPT" + " environment variable is not set"
  }

  predicate ValidRole(role: string) {
    role == SYSTEM || role == USER || role == ASSISTANT
  }

  predicate IsSystemRow(row: Row) {
    row.role == SYSTEM
  }

  /** Rows in timestamp order. */
  predicate Chronological(t: seq<Row>) {
    forall i, j :: 0 <= i < j < |t| ==> t[i].timestamp <= t[j].timestamp
  }

  /** No row is newer than `ts`. */
  predicate NotAfter(t: seq<Row>, ts: int) {
    forall i :: 0 <= i < |t| ==> t[i].timestamp <= ts
  }

  /** The system rows (`system` true) or the other rows, in table order. */
  function RowsWhere(t: seq<Row>, system: bool): (r: seq<Row>)
    ensures |r| <= |t|
    ensures forall i :: 0 <= i < |r| ==> IsSystemRow(r[i]) == system
    decreases |t|
  {
    if |t| == 0 then []
    else RowsWhere(t[..|t| - 1], system) + (if IsSystemRow(t[|t| - 1]) == system then [t[|t| - 1]] else [])
  }

  function SystemRows(t: seq<Row>): seq<Row> {
    RowsWhere(t, true)
  }

  function OtherRows(t: seq<Row>): seq<Row> {
    RowsWhere(t, false)
  }

  lemma RowsWhereSnoc(s: seq<Row>, x: Row, system: bool)
    ensures RowsWhere(s + [x], system) == RowsWhere(s, system) + (if IsSystemRow(x) == system then [x] else [])
  {
    assert (s + [x])[..|s|] == s;
  }

  /** The last `k` of `s`, or all of `s` when it has fewer. */
  function Recent<T>(s: seq<T>, k: nat): (r: seq<T>)
    ensures |r| == if k < |s| then k else |s|
    ensures r == s[|s| - |r|..]
  {
    if k < |s| then s[|s| - k..] else s
  }

  lemma RecentSnoc<T>(s: seq<T>, x: T, k: nat)
    requires k > 0
    ensures Recent(s + [x], k) == Recent(s, k - 1) + [x]
  {
    var t := s + [x];
    if k < |t| {
      assert t[|t| - k..] == s[|s| - (k - 1)..] + [x];
    }
  }

  /** Storing `row`: it goes after every row that is not newer than it. */
  function Insert(t: seq<Row>, row: Row): (r: seq<Row>)
    ensures |r| == |t| + 1
    ensures forall x :: x in r <==> x in t || x == row
    ensures multiset(r) == multiset(t) + multiset{row}
    ensures |r| > 0 && (r[|r| - 1] == row || (|t| > 0 && r[|r| - 1] == t[|t| - 1]))
    ensures NotAfter(t, row.timestamp) ==> r == t + [row]
    decreases |t|
  {
    if |t| == 0 || t[|t| - 1].timestamp <= row.timestamp then t + [row]
    else
      var init := t[..|t| - 1];
      assert t == init + [t[|t| - 1]];
      Insert(init, row) + [t[|t| - 1]]
  }

  /** Appending a row that no row is newer than keeps the order. */
  lemma ChronologicalSnoc(s: seq<Row>, x: Row)
    requires Chronological(s) && NotAfter(s, x.timestamp)
    ensures Chronological(s + [x])
  {
  }

  lemma {:induction false} InsertChronological(t: seq<Row>, row: Row)
    requires Chronological(t)
    ensures Chronological(Insert(t, row))
    decreases |t|
  {
    if |t| > 0 && t[|t| - 1].timestamp > row.timestamp {
      var init := t[..|t| - 1];
      var last := t[|t| - 1];
      InsertChronological(init, row);
      var r0 := Insert(init, row);
      forall i | 0 <= i < |r0|
        ensures r0[i].timestamp <= last.timestamp
      {
        assert r0[i] in init || r0[i] == row;
      }
      ChronologicalSnoc(r0, last);
    } else {
      ChronologicalSnoc(t, row);
    }
  }

  /** The row `add_message` stores: the content up to the first `$`. */
  function Stored(role: string, content: string, now: int): (row: Row)
    ensures !Contains(row.content, SEPARATOR)
    ensures row.content <= content
    ensures !Contains(content, SEPARATOR) ==> row.content == content
    ensures Contains(content, SEPARATOR) ==> OccursAt(content, SEPARATOR, |row.content|)
  {
    Row(role, SplitHead(content, SEPARATOR), now)
  }

  /** The trim with system rows: every system row, and of the other rows the
      `k` most recent, all in table order. */
  function KeepRecent(t: seq<Row>, k: nat): (r: seq<Row>)
    ensures forall x :: x in r ==> x in t
    decreases |t|
  {
    if |t| == 0 then []
    else
      var init, last := t[..|t| - 1], t[|t| - 1];
      if IsSystemRow(last) then KeepRecent(init, k) + [last]
      else if k > 0 then KeepRecent(init, k - 1) + [last]
      else KeepRecent(init, 0)
  }

  /** The trim's step at the newest row: a system row is kept, another row
      is kept while the budget lasts. */
  lemma KeepRecentStep(t: seq<Row>, k: nat)
    requires |t| > 0
    ensures var init, last := t[..|t| - 1], t[|t| - 1];
            KeepRecent(t, k) ==
              if IsSystemRow(last) then KeepRecent(init, k) + [last]
              else if k > 0 then KeepRecent(init, k - 1) + [last]
              else KeepRecent(init, 0)
  {
  }

  /** The trim keeps every system row, in order. */
  lemma {:induction false} KeepRecentSystems(t: seq<Row>, k: nat)
    ensures SystemRows(KeepRecent(t, k)) == SystemRows(t)
    decreases |t|
  {
    if |t| > 0 {
      var init, last := t[..|t| - 1], t[|t| - 1];
      var k' := if IsSystemRow(last) then k else if k > 0 then k - 1 else 0;
      KeepRecentStep(t, k);
      KeepRecentSystems(init, k');
      if IsSystemRow(last) || k > 0 {
        RowsWhereSnoc(KeepRecent(init, k'), last, true);
      }
    }
  }

  /** The other rows of a table are those of all but its newest row, then
      the newest row unless it is a system row. */
  lemma OtherRowsStep(t: seq<Row>)
    requires |t| > 0
    ensures OtherRows(t) == OtherRows(t[..|t| - 1]) + (if IsSystemRow(t[|t| - 1]) then [] else [t[|t| - 1]])
  {
  }

  /** The step of `KeepRecentOthers` at a newest system row. */
  lemma OthersAtSystemRow(t: seq<Row>, k: nat)
    requires |t| > 0 && IsSystemRow(t[|t| - 1])
    requires OtherRows(KeepRecent(t[..|t| - 1], k)) == Recent(OtherRows(t[..|t| - 1]), k)
    ensures OtherRows(KeepRecent(t, k)) == Recent(OtherRows(t), k)
  {
    var init, last := t[..|t| - 1], t[|t| - 1];
    KeepRecentStep(t, k);
    OtherRowsStep(t);
    RowsWhereSnoc(KeepRecent(init, k), last, false);
  }

  /** The step of `KeepRecentOthers` at a newest other row kept. */
  lemma OthersAtKeptRow(t: seq<Row>, k: nat)
    requires |t| > 0 && !IsSystemRow(t[|t| - 1]) && k > 0
    requires OtherRows(KeepRecent(t[..|t| - 1], k - 1)) == Recent(OtherRows(t[..|t| - 1]), k - 1)
    ensures OtherRows(KeepRecent(t, k)) == Recent(OtherRows(t), k)
  {
    var init, last := t[..|t| - 1], t[|t| - 1];
    KeepRecentStep(t, k);
    OtherRowsStep(t);
    RowsWhereSnoc(KeepRecent(init, k - 1), last, false);
    RecentSnoc(OtherRows(init), last, k);
  }

  /** The step of `KeepRecentOthers` at a newest other row dropped. */
  lemma OthersAtDroppedRow(t: seq<Row>)
    requires |t| > 0 && !IsSystemRow(t[|t| - 1])
    requires OtherRows(KeepRecent(t[..|t| - 1], 0)) == Recent(OtherRows(t[..|t| - 1]), 0)
    ensures OtherRows(KeepRecent(t, 0)) == Recent(OtherRows(t), 0)
  {
    KeepRecentStep(t, 0);
  }

  /** Of the other rows, the trim keeps the `k` most recent, in order. */
  lemma {:induction false} KeepRecentOthers(t: seq<Row>, k: nat)
    ensures OtherRows(KeepRecent(t, k)) == Recent(OtherRows(t), k)
    decreases |t|
  {
    if |t| > 0 {
      var init := t[..|t| - 1];
      if IsSystemRow(t[|t| - 1]) {
        KeepRecentOthers(init, k);
        OthersAtSystemRow(t, k);
      } else if k > 0 {
        KeepRecentOthers(init, k - 1);
        OthersAtKeptRow(t, k);
      } else {
        KeepRecentOthers(init, 0);
        OthersAtDroppedRow(t);
      }
    }
  }

  /** The trim keeps the rows in timestamp order. */
  lemma {:induction false} KeepRecentChronological(t: seq<Row>, k: nat)
    requires Chronological(t)
    ensures Chronological(KeepRecent(t, k))
    decreases |t|
  {
    if |t| > 0 {
      var init, last := t[..|t| - 1], t[|t| - 1];
      var k' := if IsSystemRow(last) then k else if k > 0 then k - 1 else 0;
      assert Chronological(init);
      KeepRecentChronological(init, k');
      var r0 := KeepRecent(init, k');
      forall i | 0 <= i < |r0|
        ensures r0[i].timestamp <= last.timestamp
      {
        assert r0[i] in init;
      }
      if IsSystemRow(last) || k > 0 {
        ChronologicalSnoc(r0, last);
      }
    }
  }

  /** A table that starts with a system row still starts with it after the trim. */
  lemma {:induction false} KeepRecentFirst(t: seq<Row>, k: nat)
    requires |t| > 0 && IsSystemRow(t[0])
    ensures |KeepRecent(t, k)| > 0 && KeepRecent(t, k)[0] == t[0]
    decreases |t|
  {
    if |t| > 1 {
      var init, last := t[..|t| - 1], t[|t| - 1];
      var k' := if IsSystemRow(last) then k else if k > 0 then k - 1 else 0;
      KeepRecentFirst(init, k');
    }
  }

  /** Every row is a system row or another row. */
  lemma {:induction false} RowsPartition(t: seq<Row>)
    ensures |SystemRows(t)| + |OtherRows(t)| == |t|
    decreases |t|
  {
    if |t| > 0 {
      RowsPartition(t[..|t| - 1]);
    }
  }

  /** A table without system rows. */
  lemma {:induction false} NoSystemRows(t: seq<Row>)
    ensures |SystemRows(t)| == 0 <==> forall i :: 0 <= i < |t| ==> !IsSystemRow(t[i])
    decreases |t|
  {
    if |t| > 0 {
      var init := t[..|t| - 1];
      NoSystemRows(init);
      if |SystemRows(t)| == 0 {
        assert |SystemRows(init)| == 0;
        forall i | 0 <= i < |t|
          ensures !IsSystemRow(t[i])
        {
          if i < |t| - 1 {
            assert t[i] == init[i];
          }
        }
      }
    }
  }

  /** Of a table without system rows, the `k` most recent rows. */
  lemma RecentWithoutSystem(t: seq<Row>, k: nat)
    requires k <= |t| && |SystemRows(t)| == 0
    ensures |SystemRows(t[|t| - k..])| == 0
  {
    NoSystemRows(t);
    NoSystemRows(t[|t| - k..]);
  }

  /** What `KeepRecent` keeps: every system row, the `k` most recent
      others, and the order. */
  lemma KeptRows(t: seq<Row>, k: nat)
    ensures SystemRows(KeepRecent(t, k)) == SystemRows(t)
    ensures OtherRows(KeepRecent(t, k)) == Recent(OtherRows(t), k)
    ensures |KeepRecent(t, k)| <= |SystemRows(t)| + k
    ensures Chronological(t) ==> Chronological(KeepRecent(t, k))
  {
    KeepRecentSystems(t, k);
    KeepRecentOthers(t, k);
    RowsPartition(KeepRecent(t, k));
    if Chronological(t) {
      KeepRecentChronological(t, k);
    }
  }

  /** The trim `add_message` runs when the table holds more than `max`
      rows: with system rows, all of them and the `max - #system` most recent
      others; without, the `max` most recent rows. A negative slice bound is
      refused, and the table then keeps the row just stored. */
  function Trim(t: seq<Row>, max: int): (s: Step)
    requires |t| > max
    ensures s.outcome.Err? <==> |SystemRows(t)| > max
    ensures s.outcome.Err? ==> s == Step(t, Err(ValueError(NEGATIVE_INDEX)))
    ensures s.outcome.Ok? ==> |s.table| <= max
    ensures SystemRows(s.table) == SystemRows(t)
    ensures s.outcome.Ok? && |SystemRows(t)| > 0 ==> OtherRows(s.table) == Recent(OtherRows(t), max - |SystemRows(t)|)
    ensures s.outcome.Ok? && |SystemRows(t)| == 0 ==> s.table == Recent(t, max)
    ensures forall x :: x in s.table ==> x in t
    ensures Chronological(t) ==> Chronological(s.table)
    ensures !s.outcome.Stalled?
  {
    var sys := |SystemRows(t)|;
    if sys > 0 then
      if max - sys < 0 then Step(t, Err(ValueError(NEGATIVE_INDEX)))
      else
        KeptRows(t, max - sys);
        Step(KeepRecent(t, max - sys), Ok(()))
    else if max < 0 then Step(t, Err(ValueError(NEGATIVE_INDEX)))
    else
      RecentWithoutSystem(t, max);
      Step(t[|t| - max..], Ok(()))
  }

  /** `add_message(role, content)`: check the role, store the content up to
      the first `$`, and trim when the table holds more than `max` rows. */
  function AddMessage(t: seq<Row>, max: int, role: string, content: string, now: int): (s: Step)
    ensures !ValidRole(role) ==> s == Step(t, Err(ValueError(InvalidRole(role))))
    ensures ValidRole(role) ==>
              var t1 := Insert(t, Stored(role, content, now));
              && (s.outcome.Err? <==> |SystemRows(t1)| > max)
              && (s.outcome.Err? ==> s == Step(t1, Err(ValueError(NEGATIVE_INDEX))))
              && SystemRows(s.table) == SystemRows(t1)
    ensures s.outcome.Ok? ==> |s.table| <= max
    ensures forall x :: x in s.table ==> x in t || x == Stored(role, content, now)
    ensures Chronological(t) ==> Chronological(s.table)
    ensures !s.outcome.Stalled?
  {
    if !ValidRole(role) then Step(t, Err(ValueError(InvalidRole(role))))
    else
      var t1 := Insert(t, Stored(role, content, now));
      if Chronological(t) then InsertChronological(t, Stored(role, content, now)); AddToTable(t1, max)
      else AddToTable(t1, max)
  }

  /** The table after storing: kept when it is within `max`, trimmed otherwise. */
  function AddToTable(t1: seq<Row>, max: int): (s: Step)
    ensures |t1| <= max ==> s == Step(t1, Ok(()))
    ensures |t1| > max ==> s == Trim(t1, max)
  {
    if |t1| <= max then Step(t1, Ok(())) else Trim(t1, max)
  }

  /** Within the limit, and with a clock that does not go back, the new row
      is appended and nothing is deleted. */
  lemma AddMessageAppends(t: seq<Row>, max: int, role: string, content: string, now: int)
    requires ValidRole(role) && NotAfter(t, now) && |t| + 1 <= max
    ensures AddMessage(t, max, role, content, now) == Step(t + [Stored(role, content, now)], Ok(()))
  {
  }

  /** Over the limit, the trim keeps the most recent rows: with system rows,
      the `max - #system` most recent others besides them; without, the
      `max` most recent rows. */
  lemma AddMessageKeepsRecent(t: seq<Row>, max: int, role: string, content: string, now: int)
    requires ValidRole(role)
    ensures var t1 := Insert(t, Stored(role, content, now));
            var s := AddMessage(t, max, role, content, now);
            && (s.outcome.Ok? && |t1| > max && |SystemRows(t1)| > 0 ==>
                  OtherRows(s.table) == Recent(OtherRows(t1), max - |SystemRows(t1)|))
            && (s.outcome.Ok? && |t1| > max && |SystemRows(t1)| == 0 ==> s.table == Recent(t1, max))
  {
    var t1 := Insert(t, Stored(role, content, now));
    assert AddMessage(t, max, role, content, now) == AddToTable(t1, max);
    AddToTableKeepsRecent(t1, max);
  }

  /** The same, for the table as stored. */
  lemma AddToTableKeepsRecent(t1: seq<Row>, max: int)
    ensures var s := AddToTable(t1, max);
            && (s.outcome.Ok? && |t1| > max && |SystemRows(t1)| > 0 ==>
                  OtherRows(s.table) == Recent(OtherRows(t1), max - |SystemRows(t1)|))
            && (s.outcome.Ok? && |t1| > max && |SystemRows(t1)| == 0 ==> s.table == Recent(t1, max))
  {
  }

  /** A conversation: rows in timestamp order, the system prompt first. */
  predicate Conversation(t: seq<Row>) {
    Chronological(t) && |t| > 0 && IsSystemRow(t[0])
  }

  /** Storing a message, whatever the outcome, keeps a conversation's system
      prompt first, so the history sent to the model always passes its
      system-message check. */
  lemma AddMessageKeepsPromptFirst(t: seq<Row>, max: int, role: string, content: string, now: int)
    requires Conversation(t) && NotAfter(t, now)
    ensures var s := AddMessage(t, max, role, content, now);
            Conversation(s.table) && s.table[0] == t[0]
  {
    if ValidRole(role) {
      var row := Stored(role, content, now);
      var t1 := t + [row];
      assert Insert(t, row) == t1;
      InsertChronological(t, row);
      assert t1[0] == t[0];
      if |t1| > max {
        TrimKeepsPromptFirst(t1, max);
      }
    }
  }

  lemma TrimKeepsPromptFirst(t: seq<Row>, max: int)
    requires Conversation(t) && |t| > max
    ensures Conversation(Trim(t, max).table) && Trim(t, max).table[0] == t[0]
  {
    assert |SystemRows(t)| > 0 by {
      NoSystemRows(t);
      assert IsSystemRow(t[0]);
    }
    if |SystemRows(t)| <= max {
      KeepRecentFirst(t, max - |SystemRows(t)|);
    }
  }

  /** Rows a filter deletes, as `QuerySet.delete()` does: the rest, in order. */
  function Delete(t: seq<Row>, doomed: Row -> bool): (r: seq<Row>)
    ensures forall x :: x in r <==> x in t && !doomed(x)
    decreases |t|
  {
    if |t| == 0 then []
    else (if doomed(t[0]) then [] else [t[0]]) + Delete(t[1..], doomed)
  }

  predicate NotSystem(row: Row) {
    !IsSystemRow(row)
  }

  predicate Everything(row: Row) {
    true
  }

  lemma {:induction false} DeleteSnoc(a: seq<Row>, x: Row, doomed: Row -> bool)
    ensures Delete(a + [x], doomed) == Delete(a, doomed) + (if doomed(x) then [] else [x])
    decreases |a|
  {
    if |a| == 0 {
      assert a + [x] == [x];
      assert [x][1..] == [];
    } else {
      assert (a + [x])[0] == a[0];
      assert (a + [x])[1..] == a[1..] + [x];
      DeleteSnoc(a[1..], x, doomed);
    }
  }

  /** Deleting the rows that are not system rows leaves the system rows. */
  lemma {:induction false} DeleteOthers(t: seq<Row>)
    ensures Delete(t, NotSystem) == SystemRows(t)
    decreases |t|
  {
    if |t| > 0 {
      var init := t[..|t| - 1];
      assert t == init + [t[|t| - 1]];
      DeleteOthers(init);
      DeleteSnoc(init, t[|t| - 1], NotSystem);
    }
  }

  /** Deleting every row leaves none. */
  lemma {:induction false} DeleteEverything(t: seq<Row>)
    ensures Delete(t, Everything) == []
    decreases |t|
  {
    if |t| > 0 {
      DeleteEverything(t[1..]);
    }
  }

  /** `clear_history(keep_system_prompt)`. */
  function ClearHistory(t: seq<Row>, keepSystemPrompt: bool): (r: seq<Row>)
    ensures keepSystemPrompt ==> r == SystemRows(t)
    ensures !keepSystemPrompt ==> r == []
  {
    if keepSystemPrompt then
      DeleteOthers(t);
      Delete(t, NotSystem)
    else
      DeleteEverything(t);
      Delete(t, Everything)
  }

  lemma {:induction false} RowsWhereIdempotent(t: seq<Row>, system: bool)
    ensures RowsWhere(RowsWhere(t, system), system) == RowsWhere(t, system)
    decreases |t|
  {
    if |t| > 0 {
      var init := t[..|t| - 1];
      RowsWhereIdempotent(init, system);
      if IsSystemRow(t[|t| - 1]) == system {
        assert RowsWhere(t, system) == RowsWhere(init, system) + [t[|t| - 1]];
        RowsWhereSnoc(RowsWhere(init, system), t[|t| - 1], system);
      } else {
        assert RowsWhere(t, system) == RowsWhere(init, system);
      }
    }
  }

  /** Clearing twice is clearing once. */
  lemma ClearHistoryIdempotent(t: seq<Row>, keepSystemPrompt: bool)
    ensures ClearHistory(ClearHistory(t, keepSystemPrompt), keepSystemPrompt) == ClearHistory(t, keepSystemPrompt)
  {
    RowsWhereIdempotent(t, true);
  }

  /** `get_history()`: each row as a role and a content, in table order. */
  function History(t: seq<Row>): (r: seq<Message>)
    ensures |r| == |t|
    ensures forall i :: 0 <= i < |t| ==> r[i].role == t[i].role && r[i].content == t[i].content
  {
    seq(|t|, i requires 0 <= i < |t| => Message(t[i].role, t[i].content))
  }

  /** The history of the rows `clear_history()` keeps is the system
      messages of the history. */
  lemma {:induction false} HistoryOfSystemRows(t: seq<Row>)
    ensures History(SystemRows(t)) == Systems(History(t))
    decreases |t|
  {
    if |t| > 0 {
      var init, last := t[..|t| - 1], t[|t| - 1];
      HistoryOfSystemRows(init);
      var h := History(t);
      assert h[..|h| - 1] == History(init);
      var m := Message(last.role, last.content);
      assert h[|h| - 1] == m;
      if IsSystemRow(last) {
        var a := SystemRows(init);
        assert History(a + [last]) == History(a) + [m];
      }
    }
  }

  /** A chat bot: its language-model service, its history limit and its
      conversation's table. */
  datatype ChatBot = ChatBot(service: Service, maxHistory: int, table: seq<Row>)

  /** `ChatBOT()` without a conversation id: the limit is the integer the
      `CHATBOT_MAX_HISTORY` setting holds, 20 without one; the new
      conversation holds the `CHATBOT_SYSTEM_PROMPT` setting as its one
      system message, and a missing or empty setting raises. */
  function NewChatBot(service: Service, maxSetting: Option<int>, prompt: Option<string>, now: int): (r: Result<ChatBot>)
    ensures r.Ok? <==> prompt.Some? && |prompt.value| > 0
    ensures !r.Ok? ==> r == Err(ValueError(PromptNotSet()))
    ensures r.Ok? ==> r.value.table == [Row(SYSTEM, prompt.value, now)] && r.value.service == service
    ensures r.Ok? ==> r.value.maxHistory == (if maxSetting.Some? then maxSetting.value else DEFAULT_MAX_HISTORY)
    ensures r.Ok? ==> Conversation(r.value.table)
  {
    var max := match maxSetting case Some(m) => m case None => DEFAULT_MAX_HISTORY;
    match prompt
    case Some(p) =>
      if |p| > 0 then Ok(ChatBot(service, max, [Row(SYSTEM, p, now)])) else Err(ValueError(PromptNotSet()))
    case None => Err(ValueError(PromptNotSet()))
  }

  /** The reply as `generate_response` reads it: `False` for a refused
      call; a completion's text parsed back with `json.loads`, or kept as
      the text itself when it does not parse. */
  function Parsed(answer: Answer, codec: Codec): (j: Json)
    ensures answer.Refused? ==> j == JBool(false)
    ensures answer.Completion? && codec.loads(answer.text).Some? ==> j == codec.loads(answer.text).value
    ensures answer.Completion? && codec.loads(answer.text).None? ==> j == JStr(answer.text)
  {
    match answer
    case Refused => JBool(false)
    case Completion(text) =>
      match codec.loads(text)
      case Some(v) => v
      case None => JStr(text)
  }

  /** The answer the first extraction finds: `received_data.answer` of a
      dict response, `""` when any part is missing or not a dict. */
  function Received(response: Json): (a: Json)
    ensures !response.JObj? ==> a == JStr("")
    ensures response.JObj? && "received_data" in response.fields && response.fields["received_data"].JObj?
            && "answer" in response.fields["received_data"].fields
            ==> a == response.fields["received_data"].fields["answer"]
    ensures !(response.JObj? && "received_data" in response.fields && response.fields["received_data"].JObj?
              && "answer" in response.fields["received_data"].fields)
            ==> a == JStr("")
  {
    if !response.JObj? then JStr("")
    else
      var data := Get(response, "received_data", JObj(map[])).value;
      if data.JObj? then Get(data, "answer", JStr("")).value else JStr("")
  }

  /** The older extraction, `response.get("choices", [{}])[0].get("message",
      {}).get("content", "")`. */
  function Fallback(response: Json): (r: Result<Json>)
    ensures !response.JObj? ==> r == Err(AttributeError)
    ensures response.JObj? && "choices" !in response.fields ==> r == Ok(JStr(""))
    ensures !r.Stalled?
  {
    var choices :- Get(response, "choices", JArr([JObj(map[])]));
    var first :- First(choices);
    var message :- Get(first, "message", JObj(map[]));
    Get(message, "content", JStr(""))
  }

  /** The assistant message `generate_response` extracts: the first
      extraction's answer when it is truthy, the fallback's otherwise. */
  function ExtractAnswer(response: Json): (r: Result<Json>)
    ensures Truthy(Received(response)) ==> r == Ok(Received(response))
    ensures !response.JObj? ==> r == Err(AttributeError)
    ensures response.JObj? && "choices" !in response.fields && !Truthy(Received(response)) ==> r == Ok(JStr(""))
    ensures !Truthy(Received(response)) ==> r == Fallback(response)
  {
    var a := Received(response);
    if Truthy(a) then Ok(a) else Fallback(response)
  }

  /** The reply the language-model server builds around its answer. */
  function Envelope(answer: Json): Json {
    JObj(map["status" := JStr("success"), "message" := JStr("Received JSON data"),
             "received_data" := JObj(map["answer" := answer])])
  }

  /** From the server's reply, the answer is extracted when it is truthy,
      and `""` otherwise. */
  lemma EnvelopeAnswer(answer: Json)
    ensures ExtractAnswer(Envelope(answer)) == if Truthy(answer) then Ok(answer) else Ok(JStr(""))
  {
    var e := Envelope(answer);
    assert "received_data" in e.fields && e.fields["received_data"] == JObj(map["answer" := answer]);
    assert "choices" !in e.fields;
  }

  /** A refused call (`False`) raises in the fallback. */
  lemma RefusedRaises(codec: Codec)
    ensures ExtractAnswer(Parsed(Refused, codec)) == Err(AttributeError)
  {
  }

  /** One call of `generate_response`: the bot afterwards, the payload sent
      to the model (none when nothing was sent) and the result. */
  datatype Turn = Turn(bot: ChatBot, sent: Option<seq<Message>>, result: Result<Json>)

  /** `user_message.split("$")[1]` when the message holds a `$`. */
  function Details(userMessage: string): (d: Option<string>)
    ensures d.Some? <==> Contains(userMessage, SEPARATOR)
    ensures d.Some? ==> !Contains(d.value, SEPARATOR) && d.value <= AfterFirst(userMessage, SEPARATOR)
    ensures d.Some? && !Contains(AfterFirst(userMessage, SEPARATOR), SEPARATOR) ==>
              d.value == AfterFirst(userMessage, SEPARATOR)
    ensures d.Some? && Contains(AfterFirst(userMessage, SEPARATOR), SEPARATOR) ==>
              FindFirst(AfterFirst(userMessage, SEPARATOR), SEPARATOR) == Some(|d.value|)
  {
    if Contains(userMessage, SEPARATOR) then Some(SplitSecond(userMessage, SEPARATOR)) else None
  }

  /** `generate_response(user_message)`, with the text the call appends to
      system messages a function of the object details: store the message
      up to its first `$`, send the whole table, extract the answer, and
      store a truthy answer as the assistant's message. */
  function Respond(bot: ChatBot, userMessage: string, now1: int, now2: int,
                   notes: Option<string> -> string, send: seq<Message> -> Reply, codec: Codec): (turn: Turn)
    ensures turn.bot.service == bot.service && turn.bot.maxHistory == bot.maxHistory
  {
    var content := SplitHead(userMessage, SEPARATOR);
    var s1 := AddMessage(bot.table, bot.maxHistory, USER, content, now1);
    var bot1 := bot.(table := s1.table);
    if !s1.outcome.Ok? then Turn(bot1, None, s1.outcome.PropagateFailure())
    else
      var call := Complete(bot.service, History(s1.table), None, notes(Details(userMessage)), send, codec);
      if !call.outcome.Ok? then Turn(bot1, call.sent, call.outcome.PropagateFailure())
      else
        var answer := ExtractAnswer(Parsed(call.outcome.value, codec));
        if !answer.Ok? then Turn(bot1, call.sent, answer.PropagateFailure())
        else if !Truthy(answer.value) then Turn(bot1, call.sent, answer)
        else if !answer.value.JStr? then Turn(bot1, call.sent, Err(TypeError))
        else
          var s2 := AddMessage(s1.table, bot.maxHistory, ASSISTANT, answer.value.s, now2);
          Turn(bot.(table := s2.table), call.sent, if s2.outcome.Ok? then answer else s2.outcome.PropagateFailure())
  }

  /** `generate_response` as the source calls the service: each system
      message gets the object list and the game rules. */
  function GenerateResponse(bot: ChatBot, userMessage: string, now1: int, now2: int,
                            send: seq<Message> -> Reply, codec: Codec): Turn {
    Respond(bot, userMessage, now1, now2, ObjectsNote, send, codec)
  }

  /** The row `generate_response` stores for the user's message. */
  function UserRow(userMessage: string, now: int): Row {
    Row(USER, SplitHead(userMessage, SEPARATOR), now)
  }

  /** The payload sent for a turn that stored the user's row. */
  function Sent(bot: ChatBot, userMessage: string, now: int, notes: Option<string> -> string): seq<Message> {
    Payload(History(bot.table + [UserRow(userMessage, now)]), notes(Details(userMessage)))
  }

  /** With room for it, the user's message is appended as its head before
      the `$`, and the table stays a conversation the model accepts. */
  lemma UserStep(bot: ChatBot, userMessage: string, now1: int, now2: int)
    requires Conversation(bot.table) && NotAfter(bot.table, now1) && now1 <= now2
    requires |bot.table| + 1 <= bot.maxHistory
    ensures AddMessage(bot.table, bot.maxHistory, USER, SplitHead(userMessage, SEPARATOR), now1)
            == Step(bot.table + [UserRow(userMessage, now1)], Ok(()))
    ensures var t1 := bot.table + [UserRow(userMessage, now1)];
            Conversation(t1) && NotAfter(t1, now2) && !Refuses(bot.service, History(t1), None)
  {
    var content := SplitHead(userMessage, SEPARATOR);
    SplitHeadIdempotent(userMessage, SEPARATOR);
    assert Stored(USER, content, now1) == UserRow(userMessage, now1);
    AddMessageAppends(bot.table, bot.maxHistory, USER, content, now1);
    AddMessageKeepsPromptFirst(bot.table, bot.maxHistory, USER, content, now1);
    var t1 := bot.table + [UserRow(userMessage, now1)];
    assert History(t1)[0].role == t1[0].role == SYSTEM;
  }

  /** Whatever the reply, a turn adds no rows but the user's message and
      the assistant's answer, and a truthy result is a string the model was
      asked for. */
  lemma RespondAddsOnlyItsRows(bot: ChatBot, userMessage: string, now1: int, now2: int, notes: Option<string> -> string,
                               send: seq<Message> -> Reply, codec: Codec)
    ensures var turn := Respond(bot, userMessage, now1, now2, notes, send, codec);
            && (forall x :: x in turn.bot.table ==>
                  x in bot.table || x == UserRow(userMessage, now1) || (x.role == ASSISTANT && x.timestamp == now2))
            && (turn.result.Ok? && Truthy(turn.result.value) ==> turn.result.value.JStr? && turn.sent.Some?)
  {
    var content := SplitHead(userMessage, SEPARATOR);
    SplitHeadIdempotent(userMessage, SEPARATOR);
    assert Stored(USER, content, now1) == UserRow(userMessage, now1);
    var s1 := AddMessage(bot.table, bot.maxHistory, USER, content, now1);
    var call := Complete(bot.service, History(s1.table), None, notes(Details(userMessage)), send, codec);
    if s1.outcome.Ok? && call.outcome.Ok? {
      var answer := ExtractAnswer(Parsed(call.outcome.value, codec));
      if answer.Ok? && Truthy(answer.value) && answer.value.JStr? {
        var s2 := AddMessage(s1.table, bot.maxHistory, ASSISTANT, answer.value.s, now2);
        assert Respond(bot, userMessage, now1, now2, notes, send, codec).bot.table == s2.table;
      } else {
        assert Respond(bot, userMessage, now1, now2, notes, send, codec).bot.table == s1.table;
      }
    } else {
      assert Respond(bot, userMessage, now1, now2, notes, send, codec).bot.table == s1.table;
    }
  }

  /** The server's answer, when non-empty, is returned and stored after the
      user's message as the one assistant row of the turn. */
  lemma RespondStoresAnswer(bot: ChatBot, userMessage: string, now1: int, now2: int, notes: Option<string> -> string,
                            send: seq<Message> -> Reply, codec: Codec, answer: string)
    requires RoundTrips(codec)
    requires Conversation(bot.table) && NotAfter(bot.table, now1) && now1 <= now2
    requires |bot.table| + 2 <= bot.maxHistory
    requires |answer| > 0
    requires send(Sent(bot, userMessage, now1, notes)) == Http(200, Some(Envelope(JStr(answer))))
    ensures var turn := Respond(bot, userMessage, now1, now2, notes, send, codec);
            && turn.result == Ok(JStr(answer))
            && turn.sent == Some(Sent(bot, userMessage, now1, notes))
            && turn.bot.table == bot.table + [UserRow(userMessage, now1), Row(ASSISTANT, SplitHead(answer, SEPARATOR), now2)]
  {
    UserStep(bot, userMessage, now1, now2);
    var t1 := bot.table + [UserRow(userMessage, now1)];
    var reply := send(Sent(bot, userMessage, now1, notes));
    CompletionReadsBack(reply, codec);
    EnvelopeAnswer(JStr(answer));
    AddMessageAppends(t1, bot.maxHistory, ASSISTANT, answer, now2);
    assert t1 + [Stored(ASSISTANT, answer, now2)]
        == bot.table + [UserRow(userMessage, now1), Row(ASSISTANT, SplitHead(answer, SEPARATOR), now2)];
  }

  /** An empty answer is returned and nothing but the user's message is
      stored. */
  lemma RespondEmptyAnswer(bot: ChatBot, userMessage: string, now1: int, now2: int, notes: Option<string> -> string,
                           send: seq<Message> -> Reply, codec: Codec)
    requires RoundTrips(codec)
    requires Conversation(bot.table) && NotAfter(bot.table, now1) && now1 <= now2
    requires |bot.table| + 1 <= bot.maxHistory
    requires send(Sent(bot, userMessage, now1, notes)) == Http(200, Some(Envelope(JStr(""))))
    ensures var turn := Respond(bot, userMessage, now1, now2, notes, send, codec);
            && turn.result == Ok(JStr(""))
            && turn.bot.table == bot.table + [UserRow(userMessage, now1)]
  {
    UserStep(bot, userMessage, now1, now2);
    CompletionReadsBack(send(Sent(bot, userMessage, now1, notes)), codec);
    EnvelopeAnswer(JStr(""));
  }

  /** A reply other than a 200 makes the service answer `False`, which the
      fallback extraction raises on; the user's message stays stored. */
  lemma RespondRefusedRaises(bot: ChatBot, userMessage: string, now1: int, now2: int, notes: Option<string> -> string,
                             send: seq<Message> -> Reply, codec: Codec, status: int, body: Option<Json>)
    requires Conversation(bot.table) && NotAfter(bot.table, now1) && now1 <= now2
    requires |bot.table| + 1 <= bot.maxHistory
    requires status != 200
    requires send(Sent(bot, userMessage, now1, notes)) == Http(status, body)
    ensures var turn := Respond(bot, userMessage, now1, now2, notes, send, codec);
            && turn.result == Err(AttributeError)
            && turn.sent == Some(Sent(bot, userMessage, now1, notes))
            && turn.bot.table == bot.table + [UserRow(userMessage, now1)]
  {
    UserStep(bot, userMessage, now1, now2);
    RefusedRaises(codec);
  }
}

=== FILE: client.dfy ===
/** `ComfyUIAPI.generate_img`: submit a workflow, wait for the engine to go
idle, read the job's history manifest and download the selected image.

Everything the method reaches over the network is a field of `Engine`: the
reply to the submission, the websocket messages received after connecting,
the history manifest per job and the bytes served for a filename. Each is
a total function, so the same request always meets the same reply; the
replies can fail (`Err`) or never arrive (`Stalled`).
 */
module ComfyClient {
  import opened Results
  import opened JsonValues
  import opened Workflow
  import opened Monitor
  import opened Outputs
  import opened Strings
  import opened Base64

  datatype Engine = Engine(
    /** `POST /upload/image` of the file at a path, stored under its basename. */
    upload: string -> Result<()>,
    /** The parsed reply to `POST /prompt` with a workflow. */
    submit: Workflow -> Result<Json>,
    /** What the websocket delivers after connecting, for the job with this id:
        the messages, then a close of the socket or silence. */
    events: Json -> Stream,
    /** The parsed `GET /history/<id>` reply, the id rendered into the URL:
        the `outputs` of each job it lists, in manifest order. */
    history: Json -> Result<map<string, seq<OutputNode>>>,
    /** The body of `GET /view?filename=<name>`. */
    view: string -> Result<seq<byte>>)

  /** The text the selection looks for when the caller gives none. */
  const OUTPUT_PREFIX := "no_bg"

  /** `data["prompt_id"]` of the submission reply, whatever JSON value it is. */
  function PromptId(reply: Json): (r: Result<Json>)
    ensures r.Ok? <==> reply.JObj? && "prompt_id" in reply.fields
    ensures r.Ok? ==> reply.fields["prompt_id"] == r.value
    ensures reply.JObj? && "prompt_id" !in reply.fields ==> r == Err(KeyError("prompt_id"))
    ensures !r.Stalled?
  {
    Index(reply, "prompt_id")
  }

  /** `history_data[prompt_id]`: the manifest's keys are strings, so a key of
      another type is never found, and a list or a dict cannot be hashed. */
  function Entry(manifest: map<string, seq<OutputNode>>, id: Json): (r: Result<seq<OutputNode>>)
    ensures r.Ok? <==> id.JStr? && id.s in manifest
    ensures r.Ok? ==> r.value == manifest[id.s]
    ensures id.JStr? && id.s !in manifest ==> r == Err(KeyError(id.s))
    ensures (id.JArr? || id.JObj?) ==> r == Err(TypeError)
    ensures !id.JStr? && !id.JArr? && !id.JObj? ==> r == Err(NonStringKeyError)
  {
    match id
    case JStr(key) => if key in manifest then Ok(manifest[key]) else Err(KeyError(key))
    case JArr(_) => Err(TypeError)
    case JObj(_) => Err(TypeError)
    case _ => Err(NonStringKeyError)
  }

  /** The job's output nodes: submit, wait for idle, read the history entry of
      the job. The id is not checked before the wait: an id that is not a
      string only fails at the history lookup. */
  function JobOutputs(engine: Engine, wf: Workflow): (r: Result<seq<OutputNode>>)
    ensures r.Ok? ==> engine.submit(wf).Ok? && PromptId(engine.submit(wf).value).Ok?
    ensures r.Ok? ==>
              var id := PromptId(engine.submit(wf).value).value;
              && Await(engine.events(id)).Ok?
              && engine.history(id).Ok? && id.JStr? && id.s in engine.history(id).value
              && r.value == engine.history(id).value[id.s]
    ensures !engine.submit(wf).Ok? ==> r == engine.submit(wf).PropagateFailure()
    ensures engine.submit(wf).Ok? && !PromptId(engine.submit(wf).value).Ok? ==>
              r == PromptId(engine.submit(wf).value).PropagateFailure()
    ensures (engine.submit(wf).Ok? && PromptId(engine.submit(wf).value).Ok?) ==>
              var id := PromptId(engine.submit(wf).value).value;
              && (!Await(engine.events(id)).Ok? ==> r == Await(engine.events(id)).PropagateFailure())
              && (Await(engine.events(id)).Ok? && !engine.history(id).Ok? ==> r == engine.history(id).PropagateFailure())
              && (Await(engine.events(id)).Ok? && engine.history(id).Ok?
                  ==> r == Entry(engine.history(id).value, id))
  {
    var reply :- engine.submit(wf);
    var id :- PromptId(reply);
    var idle :- Await(engine.events(id));
    var manifest :- engine.history(id);
    Entry(manifest, id)
  }

  /** A non-string id still waits for the engine to go idle: the job stalls
      when no idle status arrives, and otherwise fails at the lookup. */
  lemma NumericIdWaits(engine: Engine, wf: Workflow, n: int)
    requires engine.submit(wf) == Ok(JObj(map["prompt_id" := JNum(n)]))
    ensures Await(engine.events(JNum(n))).Stalled? ==> JobOutputs(engine, wf).Stalled?
    ensures Await(engine.events(JNum(n))).Ok? && engine.history(JNum(n)).Ok? ==>
              JobOutputs(engine, wf) == Err(NonStringKeyError)
  {
  }

  /** `generate_img(workflow, img_prefix)`: the bytes of the first output image
      whose filename contains `prefix`, or `None` when no filename does (the
      method then falls off its end). */
  function GenerateImg(engine: Engine, wf: Workflow, prefix: string): (r: Result<Option<seq<byte>>>)
    ensures !JobOutputs(engine, wf).Ok? ==> r == JobOutputs(engine, wf).PropagateFailure()
    ensures r == Ok(None) <==>
              && JobOutputs(engine, wf).Ok?
              && forall i :: 0 <= i < |Candidates(JobOutputs(engine, wf).value)| ==>
                   !Contains(Candidates(JobOutputs(engine, wf).value)[i], prefix)
    ensures r.Ok? && r.value.Some? ==>
              exists i: nat :: && FirstMatchAt(Candidates(JobOutputs(engine, wf).value), prefix, i)
                          && engine.view(Candidates(JobOutputs(engine, wf).value)[i]) == Ok(r.value.value)
    ensures forall i: nat :: JobOutputs(engine, wf).Ok? && FirstMatchAt(Candidates(JobOutputs(engine, wf).value), prefix, i) ==>
              var v := engine.view(Candidates(JobOutputs(engine, wf).value)[i]);
              && (v.Ok? ==> r == Ok(Some(v.value)))
              && (!v.Ok? ==> r == v.PropagateFailure())
  {
    var outputs :- JobOutputs(engine, wf);
    SelectOutputIsFirstMatch(outputs, prefix);
    FirstMatchUnique(Candidates(outputs), prefix);
    match SelectOutput(outputs, prefix)
    case None => Ok(None)
    case Some(name) =>
      var bytes :- engine.view(name);
      Ok(Some(bytes))
  }
}

=== FILE: datauri.dfy ===
/** The data-URI framing of the inpainting server's images: an encoded image
travels as `data:image/<format>;base64,<payload>`, and the receiver keeps only
what follows `base64,`.

The image codec (`PIL`'s `save` and `open`) is not part of this model: the
bytes a `save` produces are a parameter, and decoding ends with those bytes.
 */
module DataUri {
  import opened Results
  import opened Strings
  import opened Base64

  const MARKER := "base64,"
  const SCHEME := "data:image/"

  /** The `format` argument's default in `convert_image_to_base64`. */
  const DEFAULT_FORMAT := "PNG"

  /** `Inpainter.convert_image_to_base64`, given the bytes `image.save`
      wrote for `format`. */
  function ConvertImageToBase64(saved: seq<byte>, format: string): (r: string)
    ensures SCHEME <= r
    ensures EndsWith(r, MARKER + Encode(saved))
    ensures |r| == |SCHEME| + |format| + 1 + |MARKER| + |Encode(saved)|
    ensures r[|SCHEME|..|SCHEME| + |format|] == Lower(format)
    ensures r[|SCHEME| + |format|] == ';'
  {
    var head := SCHEME + Lower(format) + ";";
    var tail := MARKER + Encode(saved);
    assert head[..|SCHEME|] == SCHEME && head[|SCHEME|..|SCHEME| + |format|] == Lower(format);
    assert (head + tail)[..|head|] == head && (head + tail)[|head|..] == tail;
    head + tail
  }

  /** The prefix removal in `Inpainter.convert_base64_to_image`: with a
      `base64,` in the text, `split("base64,")[1]`; without one, the text
      itself. */
  function StripDataUri(s: string): (r: string)
    ensures !Contains(r, MARKER)
    ensures !Contains(s, MARKER) ==> r == s
    ensures Contains(s, MARKER) ==> r <= AfterFirst(s, MARKER)
    ensures Contains(s, MARKER) && !Contains(AfterFirst(s, MARKER), MARKER) ==> r == AfterFirst(s, MARKER)
    ensures Contains(s, MARKER) && Contains(AfterFirst(s, MARKER), MARKER) ==>
              FindFirst(AfterFirst(s, MARKER), MARKER) == Some(|r|)
  {
    if Contains(s, MARKER) then SplitSecond(s, MARKER) else s
  }

  /** `Inpainter.convert_base64_to_image` up to `PIL.Image.open`: the bytes
      handed to the image decoder, or the error `base64.b64decode` raises. */
  function ConvertBase64ToImage(s: string): (r: Result<seq<byte>>)
    ensures !r.Stalled?
    ensures !Contains(s, MARKER) ==> r == Decode(s)
  {
    Decode(StripDataUri(s))
  }

  /** No `base64,` starts inside `data:image/<f>;` when `f` has none. */
  lemma NoMarkerInHeader(f: string, rest: string)
    requires !Contains(f, MARKER)
    ensures forall j: nat :: j < |SCHEME| + |f| + 1 ==> !OccursAt(SCHEME + f + ";" + rest, MARKER, j)
  {
    var s := SCHEME + f + ";" + rest;
    var semi := |SCHEME| + |f|;
    assert s[semi] == ';';
    forall j: nat | j < semi + 1
      ensures !OccursAt(s, MARKER, j)
    {
      if j + |MARKER| <= |s| {
        var w := s[j..j + |MARKER|];
        if j < |SCHEME| {
          assert w[0] == s[j] == SCHEME[j];
          assert w[0] != MARKER[0];
        } else if j + |MARKER| <= semi {
          var k := j - |SCHEME|;
          assert f[k..k + |MARKER|] == w;
          assert !OccursAt(f, MARKER, k);
        } else {
          assert w[semi - j] == ';';
          assert w[semi - j] != MARKER[semi - j];
        }
      }
    }
  }

  /** Stripping a framed payload gives back exactly the payload, whenever the
      lower-cased format holds no `base64,` of its own. */
  lemma {:induction false} StripRecoversPayload(saved: seq<byte>, format: string)
    requires !Contains(Lower(format), MARKER)
    ensures StripDataUri(ConvertImageToBase64(saved, format)) == Encode(saved)
  {
    var f := Lower(format);
    var payload := Encode(saved);
    var head := SCHEME + f + ";";
    var s := ConvertImageToBase64(saved, format);
    assert s == head + (MARKER + payload);
    NoMarkerInHeader(f, MARKER + payload);
    assert s[|head|..|head| + |MARKER|] == MARKER;
    SplitAtFirst(s, MARKER, |head|);
    assert AfterFirst(s, MARKER) == payload;
    NoComma(saved);
    MissingCharacter(payload, MARKER, 6);
  }

  /** Framing then unframing hands the decoder the bytes `save` produced. */
  lemma RoundTrip(saved: seq<byte>, format: string)
    requires !Contains(Lower(format), MARKER)
    ensures ConvertBase64ToImage(ConvertImageToBase64(saved, format)) == Ok(saved)
  {
    StripRecoversPayload(saved, format);
    DecodeEncode(saved);
  }

  /** The default format frames the payload as `data:image/png;base64,`. */
  lemma DefaultFraming(saved: seq<byte>)
    ensures ConvertImageToBase64(saved, DEFAULT_FORMAT) == "data:image/png;base64," + Encode(saved)
    ensures ConvertBase64ToImage(ConvertImageToBase64(saved, DEFAULT_FORMAT)) == Ok(saved)
  {
    DefaultFormatLowered();
    var payload := Encode(saved);
    var head := SCHEME + Lower(DEFAULT_FORMAT) + ";";
    assert ConvertImageToBase64(saved, DEFAULT_FORMAT) == head + (MARKER + payload);
    assert head == "data:image/png;";
    assert head + (MARKER + payload) == "data:image/png;base64," + payload;
    MissingCharacter("png", MARKER, 0);
    RoundTrip(saved, DEFAULT_FORMAT);
  }

  lemma DefaultFormatLowered()
    ensures Lower(DEFAULT_FORMAT) == "png"
  {
    var l := Lower(DEFAULT_FORMAT);
    assert l[0] == LowerChar('P') == 'p';
    assert l[1] == LowerChar('N') == 'n';
    assert l[2] == LowerChar('G') == 'g';
  }

  /** A bare payload, without the framing, is decoded as it stands. */
  lemma BarePayload(saved: seq<byte>)
    ensures ConvertBase64ToImage(Encode(saved)) == Ok(saved)
  {
    NoComma(saved);
    MissingCharacter(Encode(saved), MARKER, 6);
    DecodeEncode(saved);
  }
}

=== FILE: json.dfy ===
/** Parsed JSON values and the few Python operations the services apply to
them: `j[key]`, `j.get(key, default)`, `j[0]`, truthiness and `j == 0`.
 */
module JsonValues {
  import opened Results

  /** A value produced by `json.loads` (numbers are integers here). */
  datatype Json =
    | JNull
    | JBool(b: bool)
    | JNum(n: int)
    | JStr(s: string)
    | JArr(items: seq<Json>)
    | JObj(fields: map<string, Json>)

  /** Python's `j[key]` with a `str` key: a dict lookup, `KeyError` when the
      key is absent, `TypeError` on anything that is not a dict. */
  function Index(j: Json, key: string): (r: Result<Json>)
    ensures r.Ok? <==> j.JObj? && key in j.fields
    ensures r.Ok? ==> r.value in j.fields.Values
    ensures r.Err? ==> r.error == (if j.JObj? then KeyError(key) else TypeError)
    ensures !r.Stalled?
  {
    match j
    case JObj(fields) => if key in fields then Ok(fields[key]) else Err(KeyError(key))
    case _ => Err(TypeError)
  }

  /** Python's `j.get(key, default)`: only a dict has `get`. */
  function Get(j: Json, key: string, default: Json): (r: Result<Json>)
    ensures r.Ok? <==> j.JObj?
    ensures j.JObj? && key !in j.fields ==> r == Ok(default)
    ensures !r.Stalled?
  {
    match j
    case JObj(fields) => Ok(if key in fields then fields[key] else default)
    case _ => Err(AttributeError)
  }

  /** Python's `j[0]`: the first item of a list or the first character of a
      string; a dict has no key `0` (its keys are strings). */
  function First(j: Json): (r: Result<Json>)
    ensures r.Ok? <==> (j.JArr? && |j.items| > 0) || (j.JStr? && |j.s| > 0)
    ensures !r.Stalled?
  {
    match j
    case JArr(items) => if |items| > 0 then Ok(items[0]) else Err(IndexError)
    case JStr(s) => if |s| > 0 then Ok(JStr([s[0]])) else Err(IndexError)
    case JObj(_) => Err(KeyError("0"))
    case _ => Err(TypeError)
  }

  /** Python's `bool(j)`. */
  predicate Truthy(j: Json) {
    match j
    case JNull => false
    case JBool(b) => b
    case JNum(n) => n != 0
    case JStr(s) => |s| > 0
    case JArr(items) => |items| > 0
    case JObj(fields) => |fields| > 0
  }

  /** Python's `j == 0`, which also holds of `False`. */
  predicate EqualsZero(j: Json) {
    j == JNum(0) || j == JBool(false)
  }

  /** `json.dumps` and `json.loads`: the text written for a value, and the
      value read from a text, `None` when it is not JSON. */
  datatype Codec = Codec(dumps: Json -> string, loads: string -> Option<Json>)

  /** Reading back what was written gives the value that was written. */
  ghost predicate RoundTrips(codec: Codec) {
    forall j :: codec.loads(codec.dumps(j)) == Some(j)
  }
}

=== FILE: llm.dfy ===
/** `LLMService.create_chat_completion`: the request payload built from a
message list, the guard that refuses a list without a leading system message,
and the classification of the language-model server's reply.

The HTTP request is a parameter `send` from payload to reply. The sampling
settings (`temperature`, `max_tokens`) are computed by the source but never
put into the payload, so they do not appear here.
 */
module Llm {
  import opened Results
  import opened JsonValues

  /** `llm_service.Message`: a role and a content. The payload's entries
      are `{"role", "content"}` dictionaries with the same two fields, so
      they are messages too. */
  datatype Message = Message(role: string, content: string)

  const SYSTEM := "system"
  const USER := "user"
  const ASSISTANT := "assistant"

  /** The built-in default of `LLM_DEFAULT_SYSTEM_PROMPT`. */
  const DEFAULT_SYSTEM_PROMPT := "You are a helpful assistant."
  const MISSING_SYSTEM := "System prompt not found"

  /** The game instructions that follow the object list in a system message. */
  function GameRules(): string { ". You shouldn't give any exact information about them. Instead, as a part of the game, you may give hints. Some descriptive words. Whenever,ever, you get one of this object in the User prompt, you should congratulate the user. ALways give the riddle one by one" }

  /** A configured service; only its default system prompt matters here. */
  datatype Service = Service(defaultSystemPrompt: string)

  /** `LLMService(default_system_prompt)`: the argument when given, else the
      `LLM_DEFAULT_SYSTEM_PROMPT` environment variable `env`, else the
      built-in default. */
  function NewService(given: Option<string>, env: Option<string>): Service {
    match given
    case Some(p) => Service(p)
    case None => Service(match env case Some(e) => e case None => DEFAULT_SYSTEM_PROMPT)
  }

  /** `f"{object_details}"`: a missing value renders as `None`. */
  function Render(details: Option<string>): string {
    match details
    case Some(d) => d
    case None => "None"
  }

  /** What each system message gets appended. */
  function ObjectsNote(details: Option<string>): string {
    ".These are the objects " + Render(details) + GameRules()
  }

  /** `system_prompt or self.default_system_prompt`: an empty or missing
      argument falls back to the default. */
  function EffectivePrompt(service: Service, systemPrompt: Option<string>): string {
    if systemPrompt.Some? && |systemPrompt.value| > 0 then systemPrompt.value else service.defaultSystemPrompt
  }

  /** The guard: with a non-empty effective system prompt, a list that is
      empty or does not start with a system message is refused with
      `ValueError` before anything is sent. */
  predicate Refuses(service: Service, messages: seq<Message>, systemPrompt: Option<string>) {
    && |EffectivePrompt(service, systemPrompt)| > 0
    && (|messages| == 0 || messages[0].role != SYSTEM)
  }

  predicate IsSystem(m: Message) {
    m.role == SYSTEM
  }

  /** A system message with `note` appended; any other message as it is. */
  function Annotate(m: Message, note: string): Message {
    if IsSystem(m) then Message(m.role, m.content + note) else m
  }

  /** The messages after the loop has updated the system ones in place. */
  function Annotated(messages: seq<Message>, note: string): (r: seq<Message>)
    ensures |r| == |messages|
    ensures forall i :: 0 <= i < |messages| ==> r[i] == Annotate(messages[i], note)
  {
    seq(|messages|, i requires 0 <= i < |messages| => Annotate(messages[i], note))
  }

  /** The system messages, in order. */
  function Systems(s: seq<Message>): (r: seq<Message>)
    ensures |r| <= |s|
    ensures forall i :: 0 <= i < |r| ==> IsSystem(r[i])
  {
    if |s| == 0 then []
    else Systems(s[..|s| - 1]) + (if IsSystem(s[|s| - 1]) then [s[|s| - 1]] else [])
  }

  function Reverse<T>(s: seq<T>): (r: seq<T>)
    ensures |r| == |s|
  {
    if |s| == 0 then [] else [s[|s| - 1]] + Reverse(s[..|s| - 1])
  }

  /** The reversal holds the items last first. */
  lemma {:induction false} ReverseIndex<T>(s: seq<T>)
    ensures forall i :: 0 <= i < |s| ==> Reverse(s)[i] == s[|s| - 1 - i]
    decreases |s|
  {
    if |s| > 0 {
      ReverseIndex(s[..|s| - 1]);
    }
  }

  /** The copies the first `n` turns of the loop insert at the front: the
      updated system messages among the first `n`, the latest first. */
  function Copies(messages: seq<Message>, note: string, n: nat): (r: seq<Message>)
    requires n <= |messages|
    ensures |r| <= n
  {
    if n == 0 then []
    else (if IsSystem(messages[n - 1]) then [Annotate(messages[n - 1], note)] else []) + Copies(messages, note, n - 1)
  }

  /** The payload's `messages` list: the copies, then every message as it
      was before the call. */
  function Payload(messages: seq<Message>, note: string): seq<Message> {
    Copies(messages, note, |messages|) + messages
  }

  /** The list comprehension and the update loop as written: the payload
      starts as a copy of the messages; each system message gets the note
      appended and a copy of it is inserted at the front. */
  method BuildPayload(messages: seq<Message>, note: string) returns (payload: seq<Message>, updated: seq<Message>)
    ensures payload == Payload(messages, note)
    ensures updated == Annotated(messages, note)
  {
    payload := messages;
    updated := messages;
    for i := 0 to |messages|
      invariant Progress(messages, note, updated, i)
      invariant payload == Copies(messages, note, i) + messages
    {
      if updated[i].role == SYSTEM {
        var m := Message(SYSTEM, updated[i].content + note);
        SystemTurn(messages, note, updated, i, m);
        updated := updated[i := m];
        payload := [m] + payload;
      } else {
        OtherTurn(messages, note, updated, i);
      }
    }
    ProgressDone(messages, note, updated);
  }

  /** After `i` turns the first `i` messages are updated and the others are
      as they were. */
  predicate Progress(messages: seq<Message>, note: string, updated: seq<Message>, i: int) {
    && 0 <= i <= |messages| && |updated| == |messages|
    && (forall j {:trigger updated[j]} :: 0 <= j < i ==> updated[j] == Annotate(messages[j], note))
    && (forall j {:trigger updated[j]} :: i <= j < |messages| ==> updated[j] == messages[j])
  }

  /** A turn on a system message: its update is the inserted copy. */
  lemma SystemTurn(messages: seq<Message>, note: string, updated: seq<Message>, i: nat, m: Message)
    requires Progress(messages, note, updated, i) && i < |messages|
    requires updated[i].role == SYSTEM && m == Message(SYSTEM, updated[i].content + note)
    ensures Progress(messages, note, updated[i := m], i + 1)
    ensures [m] + (Copies(messages, note, i) + messages) == Copies(messages, note, i + 1) + messages
  {
    assert Annotate(messages[i], note) == m;
    assert Copies(messages, note, i + 1) == [m] + Copies(messages, note, i);
  }

  /** A turn on any other message changes nothing. */
  lemma OtherTurn(messages: seq<Message>, note: string, updated: seq<Message>, i: nat)
    requires Progress(messages, note, updated, i) && i < |messages|
    requires updated[i].role != SYSTEM
    ensures Progress(messages, note, updated, i + 1)
    ensures Copies(messages, note, i + 1) == Copies(messages, note, i)
  {
    assert Annotate(messages[i], note) == messages[i];
  }

  lemma ProgressDone(messages: seq<Message>, note: string, updated: seq<Message>)
    requires Progress(messages, note, updated, |messages|)
    ensures updated == Annotated(messages, note)
  {
  }

  /** The copies are the updated system messages in reverse order. */
  lemma {:induction false} CopiesReversed(messages: seq<Message>, note: string, n: nat)
    requires n <= |messages|
    ensures Copies(messages, note, n) == Reverse(Annotated(Systems(messages[..n]), note))
    decreases n
  {
    if n > 0 {
      CopiesReversed(messages, note, n - 1);
      var init := messages[..n - 1];
      assert messages[..n][..n - 1] == init;
      var last := messages[n - 1];
      var a := Annotated(Systems(init), note);
      if IsSystem(last) {
        assert Annotated(Systems(messages[..n]), note) == a + [Annotate(last, note)];
      } else {
        assert Annotated(Systems(messages[..n]), note) == a;
      }
    }
  }

  /** The payload holds one entry per message plus one per system message:
      first the updated system messages, last one first, then the messages
      with their contents from before the call. */
  lemma PayloadShape(messages: seq<Message>, note: string)
    ensures var p := Payload(messages, note);
            var k := |Systems(messages)|;
            && |p| == |messages| + k
            && p[k..] == messages
            && forall i :: 0 <= i < k ==>
                 && p[i].role == SYSTEM
                 && p[i].content == Systems(messages)[k - 1 - i].content + note
  {
    var sys := Systems(messages);
    var k := |sys|;
    var copies := Copies(messages, note, |messages|);
    AllCopies(messages, note);
    var p := copies + messages;
    ConcatParts(copies, messages);
    forall i | 0 <= i < k
      ensures p[i].role == SYSTEM && p[i].content == sys[k - 1 - i].content + note
    {
      AnnotateSystem(sys[k - 1 - i], note);
    }
  }

  lemma ConcatParts<T>(a: seq<T>, b: seq<T>)
    ensures (a + b)[|a|..] == b
    ensures forall i :: 0 <= i < |a| ==> (a + b)[i] == a[i]
  {
  }

  lemma AnnotateSystem(m: Message, note: string)
    requires IsSystem(m)
    ensures Annotate(m, note).role == SYSTEM && Annotate(m, note).content == m.content + note
  {
  }

  /** All the copies: the updated system messages, the last one first. */
  lemma AllCopies(messages: seq<Message>, note: string)
    ensures var copies := Copies(messages, note, |messages|);
            var sys := Systems(messages);
            && |copies| == |sys|
            && forall i :: 0 <= i < |sys| ==> copies[i] == Annotate(sys[|sys| - 1 - i], note)
  {
    CopiesReversed(messages, note, |messages|);
    assert messages[..|messages|] == messages;
    ReverseIndex(Annotated(Systems(messages), note));
  }

  /** The server's reply: a status and a body that parses as JSON or not,
      or a transport failure. */
  datatype Reply = Http(status: int, body: Option<Json>) | Unreachable

  /** What `create_chat_completion` returns: `False`, or the text
      `json.dumps` writes for the reply's JSON. */
  datatype Answer = Refused | Completion(text: string)

  /** A 200 reply with a JSON body is a completion, the body serialised
      again; any other status, or a body that does not parse, gives
      `False`; a transport failure raises. */
  function Classify(reply: Reply, codec: Codec): (r: Result<Answer>)
    ensures r.Ok? <==> reply.Http?
    ensures r == Ok(Refused) <==> reply.Http? && (reply.status != 200 || reply.body.None?)
    ensures r.Ok? && r.value.Completion? <==> reply.Http? && reply.status == 200 && reply.body.Some?
    ensures r.Ok? && r.value.Completion? ==> r.value.text == codec.dumps(reply.body.value)
    ensures reply.Unreachable? ==> r == Err(RequestFailed)
  {
    match reply
    case Unreachable => Err(RequestFailed)
    case Http(status, body) =>
      if status == 200 && body.Some? then Ok(Completion(codec.dumps(body.value))) else Ok(Refused)
  }

  /** The completion's text reads back as the reply's JSON. */
  lemma CompletionReadsBack(reply: Reply, codec: Codec)
    requires RoundTrips(codec)
    ensures var r := Classify(reply, codec);
            r.Ok? && r.value.Completion? ==> codec.loads(r.value.text) == reply.body
  {
  }

  /** One call: the caller's messages afterwards, the payload sent (none
      when refused) and the outcome. */
  datatype Call = Call(after: seq<Message>, sent: Option<seq<Message>>, outcome: Result<Answer>)

  /** The call with the text appended to system messages given. */
  function Complete(service: Service, messages: seq<Message>, systemPrompt: Option<string>,
                    note: string, send: seq<Message> -> Reply, codec: Codec): (c: Call)
    ensures c.sent.None? <==> Refuses(service, messages, systemPrompt)
    ensures c.sent.None? ==> c.outcome == Err(ValueError(MISSING_SYSTEM)) && c.after == messages
    ensures c.sent.Some? ==> c.outcome == Classify(send(c.sent.value), codec)
    ensures c.sent.Some? ==> c.sent.value == Payload(messages, note) && c.after == Annotated(messages, note)
  {
    if Refuses(service, messages, systemPrompt) then Call(messages, None, Err(ValueError(MISSING_SYSTEM)))
    else
      var payload := Payload(messages, note);
      Call(Annotated(messages, note), Some(payload), Classify(send(payload), codec))
  }

  /** `create_chat_completion(messages, system_prompt, object_details=...)`:
      the call whose note lists the objects and the game rules. */
  function CreateChatCompletion(service: Service, messages: seq<Message>, systemPrompt: Option<string>,
                                details: Option<string>, send: seq<Message> -> Reply, codec: Codec): Call {
    Complete(service, messages, systemPrompt, ObjectsNote(details), send, codec)
  }

  /** A call that passes the guard sends one entry per message plus one per
      system message, ending with the messages as they were before the
      call, and updates the caller's system messages in place, appending
      the note, leaving every other message as it was. */
  lemma CallUpdatesSystemMessages(service: Service, messages: seq<Message>, systemPrompt: Option<string>,
                                  note: string, send: seq<Message> -> Reply, codec: Codec)
    requires !Refuses(service, messages, systemPrompt)
    ensures var c := Complete(service, messages, systemPrompt, note, send, codec);
            && c.sent.Some?
            && |c.sent.value| == |messages| + |Systems(messages)|
            && c.sent.value[|Systems(messages)|..] == messages
            && |c.after| == |messages|
            && forall i :: 0 <= i < |messages| ==>
                 && c.after[i].role == messages[i].role
                 && (IsSystem(messages[i]) ==> c.after[i].content == messages[i].content + note)
                 && (!IsSystem(messages[i]) ==> c.after[i] == messages[i])
  {
    PayloadShape(messages, note);
  }

  /** The service built without arguments, as the text-generation view
      builds it, refuses the single user message that view sends, unless
      the environment sets an empty default and no prompt is given. */
  lemma DefaultServiceRejectsUserMessage(env: Option<string>, content: string, systemPrompt: Option<string>,
                                         note: string, send: seq<Message> -> Reply, codec: Codec)
    requires env.None? || |env.value| > 0 || (systemPrompt.Some? && |systemPrompt.value| > 0)
    ensures var c := Complete(NewService(None, env), [Message(USER, content)], systemPrompt, note, send, codec);
            c.outcome == Err(ValueError(MISSING_SYSTEM)) && c.sent.None?
  {
  }

  /** A list that starts with a system message passes the guard. */
  lemma LeadingSystemPasses(service: Service, messages: seq<Message>, systemPrompt: Option<string>)
    requires |messages| > 0 && messages[0].role == SYSTEM
    ensures !Refuses(service, messages, systemPrompt)
  {
  }
}

=== FILE: monitor.dfy ===
/** The wait loop of `generate_img`: it reads websocket messages until one is
a status message whose queue is empty.

The loop has no timeout and does not look at the job id: it ends at the first
idle-queue status message, whoever it is about. An "executing" message is only
logged, a status message with work still queued and a message of any other
type are skipped, and a recognised message that lacks one of the fields the
loop reads raises out of it. The messages stand for what the server sends
before it either closes the socket, when `recv` raises `ConnectionClosed`
out of the loop, or keeps it open and sends nothing more, when `recv` blocks
forever, which the model reports as `Stalled`.
 */
module Monitor {
  import opened Results
  import opened JsonValues

  /** The value found by following `path` through nested objects. */
  function At(j: Json, path: seq<string>): Option<Json>
    decreases |path|
  {
    if |path| == 0 then Some(j)
    else if j.JObj? && path[0] in j.fields then At(j.fields[path[0]], path[1..])
    else None
  }

  const QUEUE_PATH: seq<string> := ["data", "status", "exec_info", "queue_remaining"]
  const NODE_PATH: seq<string> := ["data", "node"]

  /** What the server sends after the connection opens: the messages, then
      either the close of the socket (`closed`) or silence on an open one. */
  datatype Stream = Stream(messages: seq<Json>, closed: bool)

  /** A message of the given `type`. */
  predicate OfType(ev: Json, kind: string) {
    At(ev, ["type"]) == Some(JStr(kind))
  }

  /** A status message reporting an empty queue. */
  predicate Idle(ev: Json) {
    OfType(ev, "status") && At(ev, QUEUE_PATH).Some? && EqualsZero(At(ev, QUEUE_PATH).value)
  }

  /** A message that the loop cannot read: no `type`, or a progress or status
      message without the field the loop reads. */
  predicate Unreadable(ev: Json) {
    || At(ev, ["type"]).None?
    || (OfType(ev, "executing") && At(ev, NODE_PATH).None?)
    || (OfType(ev, "status") && At(ev, QUEUE_PATH).None?)
  }

  /** One turn of the loop on message `ev`: `Ok(true)` breaks out of it,
      `Ok(false)` reads the next message, `Err` raises out of it. */
  function StepEvent(ev: Json): (r: Result<bool>)
    ensures !r.Stalled?
    ensures r == Ok(true) <==> Idle(ev)
    ensures r.Err? <==> Unreadable(ev)
    ensures r.Err? ==> r.error != ConnectionClosed
  {
    var kind :- Index(ev, "type");
    if kind == JStr("executing") then
      var data :- Index(ev, "data");
      var node :- Index(data, "node");
      Ok(false)
    else if kind == JStr("status") then
      var data :- Index(ev, "data");
      var status :- Index(data, "status");
      var info :- Index(status, "exec_info");
      var remaining :- Index(info, "queue_remaining");
      Ok(EqualsZero(remaining))
    else
      Ok(false)
  }

  /** The progress message the server sends when it starts running `node`. */
  function ExecutingEvent(node: string): (ev: Json)
    ensures StepEvent(ev) == Ok(false)
  {
    JObj(map["type" := JStr("executing"), "data" := JObj(map["node" := JStr(node)])])
  }

  /** The status message reporting `remaining` queued jobs. */
  function StatusEvent(remaining: int): (ev: Json)
    ensures StepEvent(ev) == Ok(remaining == 0)
  {
    var info := JObj(map["queue_remaining" := JNum(remaining)]);
    JObj(map["type" := JStr("status"), "data" := JObj(map["status" := JObj(map["exec_info" := info])])])
  }

  /** Messages `from` up to `to` all let the loop go on. */
  ghost predicate AllPending(events: seq<Json>, from: nat, to: nat)
    requires to <= |events|
  {
    forall j :: from <= j < to ==> StepEvent(events[j]) == Ok(false)
  }

  /** Messages pending from `from` on are the pending message at `from`
      followed by messages pending from `from + 1` on. */
  lemma PendingStep(events: seq<Json>, from: nat)
    requires from < |events| && StepEvent(events[from]) == Ok(false)
    ensures forall to :: from < to <= |events| ==>
              (AllPending(events, from, to) <==> AllPending(events, from + 1, to))
  {
  }

  /** The loop, run on the messages from index `from`: `Ok(k)` when it breaks
      at message `k`, `Err(e)` when a message raises `e` or the socket closes
      first, `Stalled` when the messages run out on an open socket. */
  function AwaitFrom(s: Stream, from: nat): (r: Result<nat>)
    requires from <= |s.messages|
    decreases |s.messages| - from
    ensures r.Ok? ==> from <= r.value < |s.messages| && Idle(s.messages[r.value]) && AllPending(s.messages, from, r.value)
    ensures r.Err? && r.error != ConnectionClosed ==>
              exists k :: from <= k < |s.messages| && StepEvent(s.messages[k]) == Err(r.error)
                          && AllPending(s.messages, from, k)
    ensures r == Err(ConnectionClosed) <==> s.closed && AllPending(s.messages, from, |s.messages|)
    ensures r.Stalled? <==> !s.closed && AllPending(s.messages, from, |s.messages|)
  {
    if from == |s.messages| then
      if s.closed then Err(ConnectionClosed) else Stalled
    else
      var step := StepEvent(s.messages[from]);
      if step.Err? then
        assert !AllPending(s.messages, from, |s.messages|);
        assert AllPending(s.messages, from, from);
        Err(step.error)
      else if step.value then
        assert !AllPending(s.messages, from, |s.messages|);
        Ok(from)
      else
        PendingStep(s.messages, from);
        AwaitFrom(s, from + 1)
  }

  /** The whole wait loop on the messages received after connecting. */
  function Await(s: Stream): (r: Result<nat>)
    ensures r.Ok? ==> r.value < |s.messages| && Idle(s.messages[r.value]) && AllPending(s.messages, 0, r.value)
    ensures r.Err? && r.error != ConnectionClosed ==>
              exists k :: 0 <= k < |s.messages| && StepEvent(s.messages[k]) == Err(r.error)
                          && AllPending(s.messages, 0, k)
    ensures r == Err(ConnectionClosed) <==> s.closed && AllPending(s.messages, 0, |s.messages|)
    ensures r.Stalled? <==> !s.closed && AllPending(s.messages, 0, |s.messages|)
  {
    AwaitFrom(s, 0)
  }

  /** A pending message passes the turn to the next one. */
  lemma AwaitFromPending(s: Stream, from: nat)
    requires from < |s.messages| && StepEvent(s.messages[from]) == Ok(false)
    ensures AwaitFrom(s, from) == AwaitFrom(s, from + 1)
  {
  }

  /** An idle status message ends the loop at once. */
  lemma AwaitFromIdle(s: Stream, k: nat)
    requires k < |s.messages| && Idle(s.messages[k])
    ensures AwaitFrom(s, k) == Ok(k)
  {
  }

  /** Conversely, the loop breaks at the first idle status message when every
      message before it lets the loop go on. */
  lemma {:induction false} AwaitStopsAtFirstIdle(events: seq<Json>, closed: bool, from: nat, k: nat)
    requires from <= k < |events|
    requires AllPending(events, from, k) && Idle(events[k])
    ensures AwaitFrom(Stream(events, closed), from) == Ok(k)
    decreases k - from
  {
    if from < k {
      AwaitStopsAtFirstIdle(events, closed, from + 1, k);
      AwaitFromPending(Stream(events, closed), from);
    } else {
      AwaitFromIdle(Stream(events, closed), k);
    }
  }

  /** The loop never looks ahead: once it has broken out or raised, what the
      server sends next changes nothing, and while it waits on an open socket
      it simply goes on with the next messages and the close, if any. */
  lemma {:induction false} AwaitPrefix(events: seq<Json>, more: Stream, from: nat)
    requires from <= |events|
    ensures var s := Stream(events + more.messages, more.closed);
            && (!AwaitFrom(Stream(events, false), from).Stalled? ==> AwaitFrom(s, from) == AwaitFrom(Stream(events, false), from))
            && (AwaitFrom(Stream(events, false), from).Stalled? ==> AwaitFrom(s, from) == AwaitFrom(s, |events|))
    decreases |events| - from
  {
    if from < |events| {
      var s := Stream(events + more.messages, more.closed);
      var open := Stream(events, false);
      assert s.messages[from] == open.messages[from];
      AwaitPrefix(events, more, from + 1);
      var step := StepEvent(events[from]);
      if step.Ok? && !step.value {
        assert AwaitFrom(open, from) == AwaitFrom(open, from + 1);
        assert AwaitFrom(s, from) == AwaitFrom(s, from + 1);
      }
    }
  }

  /** Progress messages followed by an idle status message end the wait at
      the status message, whatever follows; progress messages alone wait
      forever on an open socket and raise when the server closes it. */
  lemma ProgressThenIdle(a: string, b: string, closed: bool)
    ensures Await(Stream([ExecutingEvent(a), ExecutingEvent(b), StatusEvent(0)], closed)) == Ok(2)
    ensures Await(Stream([ExecutingEvent(a)], false)).Stalled?
    ensures Await(Stream([ExecutingEvent(a)], true)) == Err(ConnectionClosed)
  {
    var s := Stream([ExecutingEvent(a), ExecutingEvent(b), StatusEvent(0)], closed);
    AwaitStopsAtFirstIdle(s.messages, closed, 0, 2);
  }
}

=== FILE: outputs.dfy ===
/** Output selection in `generate_img`: after the job, the client reads the
job's history manifest and downloads the first image whose filename contains
the requested text.

The manifest lists output nodes in order; a node may or may not carry a list
of images, and each image is represented by its filename. The selection loops
over nodes, skips those without images, and within a node visits the images
in order. The requested text only has to occur somewhere in the filename: it
is a substring test, not a prefix test.
 */
module Outputs {
  import opened Results
  import opened Strings

  datatype OutputNode = OutputNode(nodeId: string, images: Option<seq<string>>)

  /** The filenames the selection visits, in visiting order. */
  function Candidates(outputs: seq<OutputNode>): seq<string>
    decreases |outputs|
  {
    if |outputs| == 0 then []
    else
      (match outputs[0].images
       case Some(names) => names
       case None => [])
      + Candidates(outputs[1..])
  }

  /** `names[i]` is the first of `names` that contains `text`. */
  predicate FirstMatchAt(names: seq<string>, text: string, i: nat) {
    && i < |names|
    && Contains(names[i], text)
    && forall j :: 0 <= j < i ==> !Contains(names[j], text)
  }

  /** The index of the first of `names` that contains `text` (the inner loop). */
  function FirstMatch(names: seq<string>, text: string): (r: Option<nat>)
    ensures r.Some? ==> FirstMatchAt(names, text, r.value)
    ensures r.None? <==> forall j :: 0 <= j < |names| ==> !Contains(names[j], text)
    decreases |names|
  {
    if |names| == 0 then None
    else if Contains(names[0], text) then Some(0)
    else
      match FirstMatch(names[1..], text)
      case None => None
      case Some(i) => Some(i + 1)
  }

  /** The two nested loops that pick the image to download. */
  function SelectOutput(outputs: seq<OutputNode>, text: string): Option<string>
    decreases |outputs|
  {
    if |outputs| == 0 then None
    else
      match outputs[0].images
      case None => SelectOutput(outputs[1..], text)
      case Some(names) =>
        match FirstMatch(names, text)
        case Some(i) => Some(names[i])
        case None => SelectOutput(outputs[1..], text)
  }

  /** Only one index is the first match: the one `FirstMatch` finds. */
  lemma FirstMatchUnique(names: seq<string>, text: string)
    ensures forall i: nat :: FirstMatchAt(names, text, i) ==> FirstMatch(names, text) == Some(i)
  {
    forall i: nat | FirstMatchAt(names, text, i)
      ensures FirstMatch(names, text) == Some(i)
    {
      assert Contains(names[i], text);
    }
  }

  /** The first match of `a + b` is the first match of `a` if there is one,
      and otherwise the first match of `b`, shifted past `a`. */
  lemma {:induction false} FirstMatchConcat(a: seq<string>, b: seq<string>, text: string)
    ensures FirstMatch(a, text).Some? ==> FirstMatch(a + b, text) == FirstMatch(a, text)
    ensures FirstMatch(a, text).None? && FirstMatch(b, text).Some? ==>
              FirstMatch(a + b, text) == Some(|a| + FirstMatch(b, text).value)
    ensures FirstMatch(a, text).None? && FirstMatch(b, text).None? ==> FirstMatch(a + b, text).None?
    decreases |a|
  {
    if |a| > 0 {
      assert (a + b)[0] == a[0];
      if !Contains(a[0], text) {
        assert (a + b)[1..] == a[1..] + b;
        FirstMatchConcat(a[1..], b, text);
        FirstMatchSkip(a, text);
        FirstMatchSkip(a + b, text);
      }
    } else {
      assert a + b == b;
    }
  }

  /** Past a first name without `text`, the first match is one further on. */
  lemma FirstMatchSkip(names: seq<string>, text: string)
    requires |names| > 0 && !Contains(names[0], text)
    ensures FirstMatch(names, text) ==
              match FirstMatch(names[1..], text)
              case None => None
              case Some(i) => Some(i + 1)
  {
  }

  /** The nested loops pick the first filename, over all image-carrying
      nodes in manifest order, that contains `text`; they pick nothing when
      no filename does. */
  lemma {:induction false} SelectOutputIsFirstMatch(outputs: seq<OutputNode>, text: string)
    ensures SelectOutput(outputs, text) ==
              match FirstMatch(Candidates(outputs), text)
              case Some(i) => Some(Candidates(outputs)[i])
              case None => None
    decreases |outputs|
  {
    if |outputs| > 0 {
      SelectOutputIsFirstMatch(outputs[1..], text);
      var names := match outputs[0].images case Some(ns) => ns case None => [];
      assert Candidates(outputs) == names + Candidates(outputs[1..]);
      FirstMatchConcat(names, Candidates(outputs[1..]), text);
      if FirstMatch(names, text).Some? {
        assert (names + Candidates(outputs[1..]))[FirstMatch(names, text).value]
            == names[FirstMatch(names, text).value];
      } else if FirstMatch(Candidates(outputs[1..]), text).Some? {
        var i := FirstMatch(Candidates(outputs[1..]), text).value;
        assert (names + Candidates(outputs[1..]))[|names| + i] == Candidates(outputs[1..])[i];
      }
    }
  }

  /** A filename that has the requested text in its middle is selected too. */
  lemma SubstringNotPrefix()
    ensures SelectOutput([OutputNode("9", Some(["ComfyUI_no_bg_001.png"]))], "no_bg")
            == Some("ComfyUI_no_bg_001.png")
  {
    assert OccursAt("ComfyUI_no_bg_001.png", "no_bg", 8);
  }
}

=== FILE: poses.dfy ===
/** `ComfyUIAPIWrapper.generate_avatar_with_poses`: an initial-pose stage, then
one stage per pose file of the catalog, each producing a base64 image stored
under a semantic label.

A stage uploads a reference image, patches the workflow template so that its
reference-image slot names that upload, runs the job and encodes the selected
output. The directory listing and the template are parameters; the engine is
the abstract `Engine` of the client. Every action a stage sends to the engine
is recorded, in order, in the run's log, so that statements about what was
uploaded before what was generated can be made.
 */
module Poses {
  import opened Results
  import opened JsonValues
  import opened Strings
  import opened Base64
  import opened Workflow
  import opened ComfyClient

  /** The initial pose, `/mnt-persist/.../resources/poses/pose1.jpg`, as its
      directory and its basename (`InitialReference` shows the split is
      `os.path.basename`'s). Long texts are functions rather than constants,
      so that only the proofs that use them see their characters. */
  function InitialDir(): string {
    "/mnt-persist/" + "Kaan/" + "texture-app/" + "backend/" + "src/" + "ai_proxy/" + "services/" + "resources/" + "poses/"
  }

  const INITIAL_REFERENCE := "pose1.jpg"

  function InitialPose(): string {
    InitialDir() + INITIAL_REFERENCE
  }

  const INITIAL_LABEL := "initial_pose"

  /** The pose catalog: file name to semantic label. */
  function DefinedPoses(): map<string, string> {
    map["pose2.jpg" := "thinking", "pose7.jpg" := "wrong", "pose8.jpg" := "yay"]
  }

  const PROMPT_KEY := "positive_prompt"

  /** The style text the source appends to the caller's prompt. The prompt
      texts are functions, and the run takes them as parameters, so that
      only the proofs about these particular texts see their characters. */
  function PositiveSuffix(): string {
    ",(looking at camera:1.3)" + ",(atmosphere)" + ", coherent" + ", continuity" + ", epic" + ", plain background"
  }

  /** The source's fixed negative prompt, a triple-quoted text whose lines
      are indented by 24 spaces. */
  function NegativePrompt(): string {
    var indent := "                        ";
    "\n" + indent + "logo, logos, images, graphics, text,\n"
    + indent + "embedding:verybadimagenegative_v1.3, (3d), white eyes, layout, (worst quality:1.4),(low quality:1.4),(normal quality:1.3),\n"
    + indent + "lowres,watermark, title, (jpeg-artifacts:1.33), embedding:badhandv4, embedding:bad-artist, embedding:bad-artist-anime, (hands:1.5)\n"
    + indent
  }

  const ERROR_KEY := "error"
  const MISSING_PROMPT := "Missing positive_prompt parameter"

  /** What a run asks of the engine. */
  datatype Action = Upload(path: string) | Generate(workflow: Workflow)

  /** What the stages call: the upload of a file by path, and the job that
      runs a workflow and encodes its selected image. */
  datatype Backend = Backend(upload: string -> Result<()>, job: Workflow -> Result<string>)

  /** The engine requests made, in order, and how the run ended. */
  datatype Run<+T> = Run(log: seq<Action>, outcome: Result<T>)

  /** The caller's prompt, empty when absent. */
  function GivenPrompt(params: map<string, string>): string {
    if PROMPT_KEY in params then params[PROMPT_KEY] else ""
  }

  /** The decorated positive prompt: the caller's prompt followed by the
      style suffix. */
  function PositivePrompt(params: map<string, string>, suffix: string): (r: string)
    ensures |r| == |GivenPrompt(params)| + |suffix|
    ensures EndsWith(r, suffix)
    ensures r[..|r| - |suffix|] == GivenPrompt(params)
  {
    GivenPrompt(params) + suffix
  }

  /** `base64.b64encode(data).decode('utf-8')`, where `data` may be the
      `None` that `generate_img` returns when nothing matched. */
  function EncodeImage(img: Option<seq<byte>>): (r: Result<string>)
    ensures img.None? ==> r == Err(TypeError)
    ensures img.Some? ==> r.Ok? && Decode(r.value) == Ok(img.value)
  {
    match img
    case None => Err(TypeError)
    case Some(data) =>
      DecodeEncode(data);
      Ok(Encode(data))
  }

  /** Generate the image of `wf` and encode it. */
  function GenerateEncoded(engine: Engine, wf: Workflow): (r: Result<string>)
    ensures r.Ok? <==> exists img :: GenerateImg(engine, wf, OUTPUT_PREFIX) == Ok(Some(img))
    ensures r.Ok? ==> GenerateImg(engine, wf, OUTPUT_PREFIX) == Ok(Some(EncodedBytes(r.value)))
  {
    var img :- GenerateImg(engine, wf, OUTPUT_PREFIX);
    EncodeImage(img)
  }

  /** The backend of `ComfyUIAPIWrapper`: `upload_img` and, for a job,
      `generate_img` followed by the base64 encoding of its result. */
  function BackendOf(engine: Engine): (b: Backend)
    ensures b.upload == engine.upload
    ensures forall wf :: b.job(wf) == GenerateEncoded(engine, wf)
  {
    Backend(engine.upload, wf => GenerateEncoded(engine, wf))
  }

  /** The bytes an encoded image stands for. */
  function EncodedBytes(s: string): seq<byte> {
    match Decode(s)
    case Ok(data) => data
    case _ => []
  }

  /** `up` uploads the image that `gen` generates from: the workflow's
      reference-image slot names the uploaded file's basename. */
  predicate Names(up: Action, gen: Action) {
    up.Upload? && gen.Generate? && Slot(gen.workflow, MAPPING.referenceImg, IMAGE) == Some(JStr(Basename(up.path)))
  }

  /** Every generation request comes right after the upload of the image its
      workflow names in the reference-image slot. */
  predicate UploadThenGenerate(log: seq<Action>) {
    && (|log| > 0 ==> !log[0].Generate?)
    && forall i :: 0 < i < |log| && log[i].Generate? ==> Names(log[i - 1], log[i])
  }

  /** The paths uploaded, in order. */
  function Uploads(log: seq<Action>): (r: seq<string>)
    ensures |r| <= |log|
  {
    if |log| == 0 then []
    else (if log[0].Upload? then [log[0].path] else []) + Uploads(log[1..])
  }

  /** The reference images of the generation requests, in order. */
  function References(log: seq<Action>): (r: seq<Option<Json>>)
    ensures |r| <= |log|
  {
    if |log| == 0 then []
    else (if log[0].Generate? then [Slot(log[0].workflow, MAPPING.referenceImg, IMAGE)] else []) + References(log[1..])
  }

  /** An upload followed by the generation that names it. */
  lemma UploadPair(path: string, wf: Workflow)
    requires Slot(wf, MAPPING.referenceImg, IMAGE) == Some(JStr(Basename(path)))
    ensures UploadThenGenerate([Upload(path), Generate(wf)])
  {
    assert Names(Upload(path), Generate(wf));
  }

  /** Upload the file at `path`, then generate `wf`, which names it. */
  function UploadAndGenerate(b: Backend, path: string, wf: Workflow): (r: Run<string>)
    requires Slot(wf, MAPPING.referenceImg, IMAGE) == Some(JStr(Basename(path)))
    ensures UploadThenGenerate(r.log)
    ensures 0 < |r.log| && r.log[0] == Upload(path)
    ensures r.outcome.Ok? ==> r.log == [Upload(path), Generate(wf)] && r.outcome == b.job(wf)
  {
    var up := b.upload(path);
    if !up.Ok? then
      UploadAlone(path);
      Run([Upload(path)], up.PropagateFailure())
    else
      UploadPair(path, wf);
      Run([Upload(path), Generate(wf)], b.job(wf))
  }

  lemma UploadAlone(path: string)
    ensures UploadThenGenerate([Upload(path)])
  {
  }

  /** The stage for an initial pose at `path`: the workflow, naming the
      path's basename, is built before the upload, and the image is
      generated after it. */
  function InitialStageAt(b: Backend, template: Workflow, path: string, positive: string, negative: string): (r: Run<string>)
    ensures UploadThenGenerate(r.log)
    ensures !GetWorkflow(template, Parameters(positive, negative, Basename(path))).Ok? ==> r.log == [] && !r.outcome.Ok?
    ensures r.outcome.Ok? ==>
              && |r.log| == 2 && r.log[0] == Upload(path) && r.log[1].Generate?
              && ReadsBack(r.log[1].workflow, Parameters(positive, negative, Basename(path)))
              && r.outcome == b.job(r.log[1].workflow)
  {
    var wf := GetWorkflow(template, Parameters(positive, negative, Basename(path)));
    if !wf.Ok? then Run([], wf.PropagateFailure())
    else UploadAndGenerate(b, path, wf.value)
  }

  /** The stage for the source's initial pose. */
  function InitialStage(b: Backend, template: Workflow, positive: string, negative: string): Run<string> {
    InitialStageAt(b, template, InitialPose(), positive, negative)
  }

  /** The stage for one pose file: upload it, then build the workflow that
      names its basename, then generate. */
  function PoseStage(b: Backend, template: Workflow, dir: string, positive: string, negative: string, file: string): (r: Run<string>)
    ensures UploadThenGenerate(r.log)
    ensures 0 < |r.log| && r.log[0] == Upload(Join(dir, file))
    ensures r.outcome.Ok? ==>
              && |r.log| == 2 && r.log[1].Generate?
              && ReadsBack(r.log[1].workflow, Parameters(positive, negative, Basename(file)))
              && r.outcome == b.job(r.log[1].workflow)
  {
    var path := Join(dir, file);
    var up := b.upload(path);
    UploadAlone(path);
    if !up.Ok? then Run([Upload(path)], up.PropagateFailure())
    else
      var wf := GetWorkflow(template, Parameters(positive, negative, Basename(file)));
      if !wf.Ok? then Run([Upload(path)], wf.PropagateFailure())
      else
        UploadPair(path, wf.value);
        Run([Upload(path), Generate(wf.value)], b.job(wf.value))
  }

  /** The pose stage as a function of the file name. */
  function PoseStages(b: Backend, template: Workflow, dir: string, positive: string, negative: string): (stage: string -> Run<string>)
    ensures forall f :: stage(f) == PoseStage(b, template, dir, positive, negative, f)
  {
    f => PoseStage(b, template, dir, positive, negative, f)
  }

  /** The names of the listing that end in `.jpg`, in listing order. */
  function JpgFiles(listing: seq<string>): (r: seq<string>)
    ensures forall f :: f in r <==> f in listing && EndsWith(f, ".jpg")
    ensures forall f :: multiset(r)[f] == if EndsWith(f, ".jpg") then multiset(listing)[f] else 0
  {
    if |listing| == 0 then []
    else
      assert listing == [listing[0]] + listing[1..];
      (if EndsWith(listing[0], ".jpg") then [listing[0]] else []) + JpgFiles(listing[1..])
  }

  /** `sorted(f for f in os.listdir(poses_dir) if f.endswith('.jpg'))`. */
  function PoseFiles(listing: seq<string>): (r: seq<string>)
    ensures Sorted(r)
    ensures forall f :: f in r <==> f in listing && EndsWith(f, ".jpg")
    ensures forall f :: multiset(r)[f] == if EndsWith(f, ".jpg") then multiset(listing)[f] else 0
  {
    var jpgs := JpgFiles(listing);
    var r := Sort(jpgs);
    assert forall f :: f in r <==> f in multiset(r);
    r
  }

  /** A file the loop does not skip: its basename is a catalog key. */
  predicate InCatalog(catalog: map<string, string>, file: string) {
    Basename(file) in catalog
  }

  function Label(catalog: map<string, string>, file: string): string
    requires InCatalog(catalog, file)
  {
    catalog[Basename(file)]
  }

  /** The files the loop runs a stage for, in loop order. */
  function Selected(catalog: map<string, string>, files: seq<string>): (r: seq<string>)
    ensures forall f :: f in r <==> f in files && InCatalog(catalog, f)
  {
    if |files| == 0 then []
    else (if InCatalog(catalog, files[0]) then [files[0]] else []) + Selected(catalog, files[1..])
  }

  /** The labels the loop stores under. */
  ghost function Labels(catalog: map<string, string>, files: seq<string>): set<string> {
    set f | f in files && InCatalog(catalog, f) :: Label(catalog, f)
  }

  /** The loop over the pose files, with the stage a parameter: skip names
      outside the catalog, run the stage for the others, stop at the first
      stage that fails. */
  function RunStages(stage: string -> Run<string>, catalog: map<string, string>, files: seq<string>): Run<map<string, string>>
    decreases |files|
  {
    if |files| == 0 then Run([], Ok(map[]))
    else if !InCatalog(catalog, files[0]) then RunStages(stage, catalog, files[1..])
    else
      var first := stage(files[0]);
      if !first.outcome.Ok? then Run(first.log, first.outcome.PropagateFailure())
      else
        var rest := RunStages(stage, catalog, files[1..]);
        Run(first.log + rest.log,
            if rest.outcome.Ok? then Ok(map[Label(catalog, files[0]) := first.outcome.value] + rest.outcome.value)
            else rest.outcome)
  }

  /** A file outside the catalog is skipped. */
  lemma RunStagesSkip(stage: string -> Run<string>, catalog: map<string, string>, files: seq<string>)
    requires |files| > 0 && !InCatalog(catalog, files[0])
    ensures RunStages(stage, catalog, files) == RunStages(stage, catalog, files[1..])
  {
  }

  /** After a successful stage, the loop goes on with the rest of the files. */
  lemma RunStagesStep(stage: string -> Run<string>, catalog: map<string, string>, files: seq<string>)
    requires |files| > 0 && InCatalog(catalog, files[0]) && stage(files[0]).outcome.Ok?
    ensures var rest := RunStages(stage, catalog, files[1..]);
            && RunStages(stage, catalog, files).log == stage(files[0]).log + rest.log
            && (RunStages(stage, catalog, files).outcome.Ok? <==> rest.outcome.Ok?)
            && (rest.outcome.Ok? ==>
                  RunStages(stage, catalog, files).outcome.value
                  == map[Label(catalog, files[0]) := stage(files[0]).outcome.value] + rest.outcome.value)
  {
  }

  /** Every stage the loop would run over `files` succeeds. */
  predicate AllStagesOk(stage: string -> Run<string>, catalog: map<string, string>, files: seq<string>) {
    forall f :: f in files && InCatalog(catalog, f) ==> stage(f).outcome.Ok?
  }

  /** The loop completes exactly when every stage it runs succeeds. */
  lemma {:induction false} RunStagesSucceeds(stage: string -> Run<string>, catalog: map<string, string>, files: seq<string>)
    ensures RunStages(stage, catalog, files).outcome.Ok? <==> AllStagesOk(stage, catalog, files)
    decreases |files|
  {
    if |files| > 0 {
      RunStagesSucceeds(stage, catalog, files[1..]);
      AllStagesOkCons(stage, catalog, files);
    }
  }

  lemma AllStagesOkCons(stage: string -> Run<string>, catalog: map<string, string>, files: seq<string>)
    requires |files| > 0
    ensures AllStagesOk(stage, catalog, files) <==>
              (InCatalog(catalog, files[0]) ==> stage(files[0]).outcome.Ok?) && AllStagesOk(stage, catalog, files[1..])
  {
    assert forall f :: f in files <==> f == files[0] || f in files[1..];
  }

  /** A completed loop stores one entry per label of the files it ran. */
  lemma {:induction false} RunStagesKeys(stage: string -> Run<string>, catalog: map<string, string>, files: seq<string>)
    ensures RunStages(stage, catalog, files).outcome.Ok? ==> RunStages(stage, catalog, files).outcome.value.Keys == Labels(catalog, files)
    decreases |files|
  {
    if |files| > 0 {
      RunStagesKeys(stage, catalog, files[1..]);
      LabelsCons(catalog, files);
      if !InCatalog(catalog, files[0]) {
        RunStagesSkip(stage, catalog, files);
      } else if stage(files[0]).outcome.Ok? {
        RunStagesStep(stage, catalog, files);
        var rest := RunStages(stage, catalog, files[1..]);
        if rest.outcome.Ok? {
          KeysOfUpdate(Label(catalog, files[0]), stage(files[0]).outcome.value, rest.outcome.value);
        }
      }
    }
  }

  lemma KeysOfUpdate(k: string, v: string, m: map<string, string>)
    ensures (map[k := v] + m).Keys == {k} + m.Keys
  {
  }

  lemma LabelsCons(catalog: map<string, string>, files: seq<string>)
    requires |files| > 0
    ensures Labels(catalog, files) ==
              (if InCatalog(catalog, files[0]) then {Label(catalog, files[0])} else {}) + Labels(catalog, files[1..])
  {
    assert forall f :: f in files <==> f == files[0] || f in files[1..];
  }

  /** The loop's log is the stages' logs, one after the other, so it uploads
      before each generation when every stage does. */
  lemma {:induction false} RunStagesLog(stage: string -> Run<string>, catalog: map<string, string>, files: seq<string>)
    requires forall f :: UploadThenGenerate(stage(f).log)
    ensures UploadThenGenerate(RunStages(stage, catalog, files).log)
    decreases |files|
  {
    if |files| > 0 {
      RunStagesLog(stage, catalog, files[1..]);
      if !InCatalog(catalog, files[0]) {
        RunStagesSkip(stage, catalog, files);
      } else if stage(files[0]).outcome.Ok? {
        RunStagesStep(stage, catalog, files);
        ConcatUploadThenGenerate(stage(files[0]).log, RunStages(stage, catalog, files[1..]).log);
      }
    }
  }

  /** Distinct keys carry distinct labels. */
  predicate Injective(catalog: map<string, string>) {
    forall a, b :: a in catalog && b in catalog && catalog[a] == catalog[b] ==> a == b
  }

  /** The catalog maps distinct files to distinct labels, none of which is
      the initial pose's key or the error key. */
  lemma CatalogLabels()
    ensures Injective(DefinedPoses())
    ensures INITIAL_LABEL !in DefinedPoses().Values && ERROR_KEY !in DefinedPoses().Values
  {
  }

  /** For names without '/' (as a directory listing gives), distinct files
      have distinct labels. */
  lemma LabelInjective(catalog: map<string, string>, f1: string, f2: string)
    requires Injective(catalog)
    requires '/' !in f1 && '/' !in f2 && InCatalog(catalog, f1) && InCatalog(catalog, f2)
    ensures Label(catalog, f1) == Label(catalog, f2) ==> f1 == f2
  {
    PlainBasename(f1);
    PlainBasename(f2);
  }

  /** Each stage's image ends up under its file's label. */
  lemma {:induction false} RunStagesValues(stage: string -> Run<string>, catalog: map<string, string>, files: seq<string>)
    requires Injective(catalog) && forall f :: f in files ==> '/' !in f
    ensures RunStages(stage, catalog, files).outcome.Ok? ==>
              forall f :: f in files && InCatalog(catalog, f) ==>
                && stage(f).outcome.Ok?
                && Label(catalog, f) in RunStages(stage, catalog, files).outcome.value
                && RunStages(stage, catalog, files).outcome.value[Label(catalog, f)] == stage(f).outcome.value
    decreases |files|
  {
    RunStagesSucceeds(stage, catalog, files);
    if |files| > 0 {
      var f0 := files[0];
      var rest := RunStages(stage, catalog, files[1..]);
      RunStagesValues(stage, catalog, files[1..]);
      RunStagesKeys(stage, catalog, files[1..]);
      assert forall f :: f in files <==> f == f0 || f in files[1..];
      if InCatalog(catalog, f0) && stage(f0).outcome.Ok? && rest.outcome.Ok? {
        var v := RunStages(stage, catalog, files).outcome.value;
        assert v == map[Label(catalog, f0) := stage(f0).outcome.value] + rest.outcome.value;
        forall f | f in files && InCatalog(catalog, f)
          ensures Label(catalog, f) in v && v[Label(catalog, f)] == stage(f).outcome.value
        {
          if f !in files[1..] {
            forall g | g in files[1..] && InCatalog(catalog, g)
              ensures Label(catalog, g) != Label(catalog, f0)
            {
              LabelInjective(catalog, g, f0);
            }
            assert Label(catalog, f0) !in Labels(catalog, files[1..]);
          }
        }
      }
    }
  }

  /** The paths uploaded, in loop order, when each successful stage uploads
      `path(f)` alone. */
  lemma {:induction false} RunStagesUploads(stage: string -> Run<string>, catalog: map<string, string>, files: seq<string>, path: string -> string)
    requires forall f :: stage(f).outcome.Ok? ==> Uploads(stage(f).log) == [path(f)]
    ensures RunStages(stage, catalog, files).outcome.Ok? ==>
              Uploads(RunStages(stage, catalog, files).log) == Apply(path, Selected(catalog, files))
    decreases |files|
  {
    if |files| > 0 {
      RunStagesUploads(stage, catalog, files[1..], path);
      var f0 := files[0];
      if !InCatalog(catalog, f0) {
        RunStagesSkip(stage, catalog, files);
      } else if stage(f0).outcome.Ok? {
        RunStagesStep(stage, catalog, files);
        var rest := RunStages(stage, catalog, files[1..]);
        if rest.outcome.Ok? {
          UploadsConcat(stage(f0).log, rest.log);
          ApplyCons(path, f0, Selected(catalog, files[1..]));
          assert Selected(catalog, files) == [f0] + Selected(catalog, files[1..]);
          assert Uploads(RunStages(stage, catalog, files).log) == [path(f0)] + Uploads(rest.log);
        }
      }
    }
  }

  /** The reference images generated from, in loop order, when each
      successful stage generates from `ref(f)` alone. */
  lemma {:induction false} RunStagesReferences(stage: string -> Run<string>, catalog: map<string, string>, files: seq<string>, ref: string -> Option<Json>)
    requires forall f :: stage(f).outcome.Ok? ==> References(stage(f).log) == [ref(f)]
    ensures RunStages(stage, catalog, files).outcome.Ok? ==>
              References(RunStages(stage, catalog, files).log) == Apply(ref, Selected(catalog, files))
    decreases |files|
  {
    if |files| > 0 {
      RunStagesReferences(stage, catalog, files[1..], ref);
      var f0 := files[0];
      if !InCatalog(catalog, f0) {
        RunStagesSkip(stage, catalog, files);
      } else if stage(f0).outcome.Ok? {
        RunStagesStep(stage, catalog, files);
        var rest := RunStages(stage, catalog, files[1..]);
        if rest.outcome.Ok? {
          ReferencesConcat(stage(f0).log, rest.log);
          ApplyCons(ref, f0, Selected(catalog, files[1..]));
          assert Selected(catalog, files) == [f0] + Selected(catalog, files[1..]);
          assert References(RunStages(stage, catalog, files).log) == [ref(f0)] + References(rest.log);
        }
      }
    }
  }

  /** `fn` applied to each of `s`, in order. */
  function Apply<T>(fn: string -> T, s: seq<string>): (r: seq<T>)
    ensures |r| == |s| && forall i :: 0 <= i < |s| ==> r[i] == fn(s[i])
  {
    seq(|s|, i requires 0 <= i < |s| => fn(s[i]))
  }

  lemma ApplyCons<T>(fn: string -> T, x: string, s: seq<string>)
    ensures Apply(fn, [x] + s) == [fn(x)] + Apply(fn, s)
  {
  }

  lemma {:induction false} UploadsConcat(a: seq<Action>, b: seq<Action>)
    ensures Uploads(a + b) == Uploads(a) + Uploads(b)
    decreases |a|
  {
    if |a| > 0 {
      assert (a + b)[0] == a[0] && (a + b)[1..] == a[1..] + b;
      UploadsConcat(a[1..], b);
    } else {
      assert a + b == b;
    }
  }

  lemma {:induction false} ReferencesConcat(a: seq<Action>, b: seq<Action>)
    ensures References(a + b) == References(a) + References(b)
    decreases |a|
  {
    if |a| > 0 {
      assert (a + b)[0] == a[0] && (a + b)[1..] == a[1..] + b;
      ReferencesConcat(a[1..], b);
    } else {
      assert a + b == b;
    }
  }

  /** Two logs that each upload before generating still do when joined. */
  lemma ConcatUploadThenGenerate(a: seq<Action>, b: seq<Action>)
    requires UploadThenGenerate(a) && UploadThenGenerate(b)
    ensures UploadThenGenerate(a + b)
  {
    forall i | 0 < i < |a + b| && (a + b)[i].Generate?
      ensures Names((a + b)[i - 1], (a + b)[i])
    {
      if i < |a| {
        assert (a + b)[i] == a[i] && (a + b)[i - 1] == a[i - 1];
      } else if i == |a| {
        assert false;
      } else {
        assert (a + b)[i] == b[i - |a|];
        assert (a + b)[i - 1] == b[i - |a| - 1];
      }
    }
  }

  /** The result of a run from its initial stage and its loop: nothing more
      happens after a failed initial stage; otherwise the logs are joined and
      the dictionary holds the initial image under `initial_pose` and the
      loop's images under their labels. */
  function Assemble(initial: Run<string>, rest: Run<map<string, string>>): Run<map<string, string>> {
    if !initial.outcome.Ok? then Run(initial.log, initial.outcome.PropagateFailure())
    else
      Run(initial.log + rest.log,
          if rest.outcome.Ok? then Ok(map[INITIAL_LABEL := initial.outcome.value] + rest.outcome.value)
          else rest.outcome)
  }

  /** The run with the decorated prompts given: the initial stage, then the
      loop over the pose files. */
  function AvatarRun(b: Backend, template: Workflow, dir: string, positive: string, negative: string, listing: seq<string>): Run<map<string, string>> {
    Assemble(InitialStage(b, template, positive, negative),
             RunStages(PoseStages(b, template, dir, positive, negative), DefinedPoses(), PoseFiles(listing)))
  }

  /** `generate_avatar_with_poses(params)` with the pose directory's listing
      and the two prompt texts given: the empty-prompt check, then the run. */
  function GeneratePoses(b: Backend, template: Workflow, dir: string, params: map<string, string>,
                         suffix: string, negative: string, listing: seq<string>): (r: Run<map<string, string>>)
    ensures |suffix| > 0 ==> r == AvatarRun(b, template, dir, PositivePrompt(params, suffix), negative, listing)
  {
    var positive := PositivePrompt(params, suffix);
    if |positive| == 0 then Run([], Ok(map[ERROR_KEY := MISSING_PROMPT]))
    else AvatarRun(b, template, dir, positive, negative, listing)
  }

  /** `generate_avatar_with_poses(params)` with the source's prompt texts. */
  function GenerateAvatarWithPoses(b: Backend, template: Workflow, dir: string, params: map<string, string>, listing: seq<string>): Run<map<string, string>> {
    GeneratePoses(b, template, dir, params, PositiveSuffix(), NegativePrompt(), listing)
  }

  /** The missing-prompt dictionary is returned exactly when both the
      caller's prompt and the suffix are empty: a completed run never holds
      the error key. */
  lemma MissingPrompt(b: Backend, template: Workflow, dir: string, params: map<string, string>,
                      suffix: string, negative: string, listing: seq<string>)
    ensures GeneratePoses(b, template, dir, params, suffix, negative, listing).outcome == Ok(map[ERROR_KEY := MISSING_PROMPT])
            <==> |GivenPrompt(params)| == 0 && |suffix| == 0
  {
    AvatarKeys(b, template, dir, PositivePrompt(params, suffix), negative, listing);
  }

  /** The initial pose's basename is `pose1.jpg`. */
  lemma InitialReference()
    ensures Basename(InitialPose()) == INITIAL_REFERENCE
  {
    InitialDirIsDirectory();
    ReferenceIsPlain();
    BasenameAfterSeparator(InitialDir(), INITIAL_REFERENCE);
  }

  lemma InitialDirIsDirectory()
    ensures |InitialDir()| > 0 && InitialDir()[|InitialDir()| - 1] == '/'
  {
  }

  lemma ReferenceIsPlain()
    ensures '/' !in INITIAL_REFERENCE
  {
  }

  /** A successful initial stage uploads the initial pose and generates from
      its basename. */
  lemma InitialStageActions(b: Backend, template: Workflow, positive: string, negative: string)
    ensures InitialStage(b, template, positive, negative).outcome.Ok? ==>
              && Uploads(InitialStage(b, template, positive, negative).log) == [InitialPose()]
              && References(InitialStage(b, template, positive, negative).log) == [Some(JStr(INITIAL_REFERENCE))]
  {
    var r := InitialStage(b, template, positive, negative);
    if r.outcome.Ok? {
      InitialReference();
      assert r.log == [Upload(r.log[0].path), Generate(r.log[1].workflow)];
      PairActions(r.log[0].path, r.log[1].workflow);
    }
  }

  /** A successful pose stage uploads the file from the pose directory and
      generates from the file's basename. */
  lemma PoseStageActions(b: Backend, template: Workflow, dir: string, positive: string, negative: string, file: string)
    ensures PoseStage(b, template, dir, positive, negative, file).outcome.Ok? ==>
              && Uploads(PoseStage(b, template, dir, positive, negative, file).log) == [Join(dir, file)]
              && References(PoseStage(b, template, dir, positive, negative, file).log) == [Some(JStr(Basename(file)))]
  {
    var r := PoseStage(b, template, dir, positive, negative, file);
    if r.outcome.Ok? {
      assert r.log == [Upload(r.log[0].path), Generate(r.log[1].workflow)];
      PairActions(r.log[0].path, r.log[1].workflow);
    }
  }

  /** An upload followed by a generation records one path and one
      reference image. */
  lemma PairActions(path: string, wf: Workflow)
    ensures Uploads([Upload(path), Generate(wf)]) == [path]
    ensures References([Upload(path), Generate(wf)]) == [Slot(wf, MAPPING.referenceImg, IMAGE)]
  {
    var log := [Upload(path), Generate(wf)];
    assert log[1..][1..] == [];
  }

  /** Each successful pose stage uploads its file and generates from its
      basename, whatever the file. */
  lemma PoseStagesActions(b: Backend, template: Workflow, dir: string, positive: string, negative: string)
    ensures var stage := PoseStages(b, template, dir, positive, negative);
            forall f :: stage(f).outcome.Ok? ==>
              Uploads(stage(f).log) == [Join(dir, f)] && References(stage(f).log) == [Some(JStr(Basename(f)))]
  {
    forall f
      ensures PoseStage(b, template, dir, positive, negative, f).outcome.Ok? ==>
                && Uploads(PoseStage(b, template, dir, positive, negative, f).log) == [Join(dir, f)]
                && References(PoseStage(b, template, dir, positive, negative, f).log) == [Some(JStr(Basename(f)))]
    {
      PoseStageActions(b, template, dir, positive, negative, f);
    }
  }

  /** A run completes exactly when its initial stage and every stage of its
      loop succeed. */
  lemma AssembleSucceeds(initial: Run<string>, stage: string -> Run<string>, files: seq<string>)
    ensures Assemble(initial, RunStages(stage, DefinedPoses(), files)).outcome.Ok?
            <==> initial.outcome.Ok? && AllStagesOk(stage, DefinedPoses(), files)
  {
    RunStagesSucceeds(stage, DefinedPoses(), files);
  }

  /** The run returns a dictionary exactly when the initial stage and every
      catalog pose's stage succeed. */
  lemma AvatarSucceeds(b: Backend, template: Workflow, dir: string, positive: string, negative: string, listing: seq<string>)
    ensures AvatarRun(b, template, dir, positive, negative, listing).outcome.Ok?
            <==> && InitialStage(b, template, positive, negative).outcome.Ok?
                 && forall f :: f in listing && EndsWith(f, ".jpg") && InCatalog(DefinedPoses(), f) ==>
                      PoseStage(b, template, dir, positive, negative, f).outcome.Ok?
  {
    var stage := PoseStages(b, template, dir, positive, negative);
    AssembleSucceeds(InitialStage(b, template, positive, negative), stage, PoseFiles(listing));
  }

  /** A completed run's keys are the initial pose's key and the labels of the
      files its loop ran; the error key is not among them. */
  lemma AssembleKeys(initial: Run<string>, stage: string -> Run<string>, files: seq<string>)
    ensures var r := Assemble(initial, RunStages(stage, DefinedPoses(), files));
            r.outcome.Ok? ==>
              && r.outcome.value.Keys == {INITIAL_LABEL} + Labels(DefinedPoses(), files)
              && ERROR_KEY !in r.outcome.value
  {
    RunStagesKeys(stage, DefinedPoses(), files);
    CatalogLabels();
  }

  /** The dictionary's keys are the initial pose's key and the labels of the
      catalog poses found; the error key never appears. */
  lemma AvatarKeys(b: Backend, template: Workflow, dir: string, positive: string, negative: string, listing: seq<string>)
    ensures var r := AvatarRun(b, template, dir, positive, negative, listing);
            r.outcome.Ok? ==>
              && r.outcome.value.Keys == {INITIAL_LABEL} + Labels(DefinedPoses(), PoseFiles(listing))
              && ERROR_KEY !in r.outcome.value
  {
    AssembleKeys(InitialStage(b, template, positive, negative), PoseStages(b, template, dir, positive, negative), PoseFiles(listing));
  }

  /** The loop never overwrites the initial image. */
  lemma AssembleInitialValue(initial: Run<string>, stage: string -> Run<string>, files: seq<string>)
    ensures var r := Assemble(initial, RunStages(stage, DefinedPoses(), files));
            r.outcome.Ok? ==>
              && initial.outcome.Ok?
              && INITIAL_LABEL in r.outcome.value
              && r.outcome.value[INITIAL_LABEL] == initial.outcome.value
  {
    var rest := RunStages(stage, DefinedPoses(), files);
    if initial.outcome.Ok? && rest.outcome.Ok? {
      RunStagesKeys(stage, DefinedPoses(), files);
      CatalogLabels();
      assert INITIAL_LABEL !in rest.outcome.value;
    }
  }

  /** The initial image is stored under the initial pose's key. */
  lemma AvatarInitialValue(b: Backend, template: Workflow, dir: string, positive: string, negative: string, listing: seq<string>)
    ensures var r := AvatarRun(b, template, dir, positive, negative, listing);
            r.outcome.Ok? ==>
              && InitialStage(b, template, positive, negative).outcome.Ok?
              && INITIAL_LABEL in r.outcome.value
              && r.outcome.value[INITIAL_LABEL] == InitialStage(b, template, positive, negative).outcome.value
  {
    AssembleInitialValue(InitialStage(b, template, positive, negative), PoseStages(b, template, dir, positive, negative), PoseFiles(listing));
  }

  /** The source's style suffix is not empty. */
  lemma SuffixNonEmpty()
    ensures |PositiveSuffix()| > 0
  {
    assert PositiveSuffix()[0] == ',';
  }

  /** Run against an engine with a non-empty style suffix, a completed call
      holds under `initial_pose` the base64 text of the image `generate_img`
      returns for the initial workflow: the template with the decorated
      prompts and `pose1.jpg` as the reference image. */
  lemma EngineInitialImageWith(engine: Engine, template: Workflow, dir: string, params: map<string, string>,
                               suffix: string, negative: string, listing: seq<string>)
    ensures var positive := PositivePrompt(params, suffix);
            var wf := GetWorkflow(template, Parameters(positive, negative, INITIAL_REFERENCE));
            var r := GeneratePoses(BackendOf(engine), template, dir, params, suffix, negative, listing);
            r.outcome.Ok? && |suffix| > 0 ==>
              && wf.Ok?
              && INITIAL_LABEL in r.outcome.value
              && exists img :: && GenerateImg(engine, wf.value, OUTPUT_PREFIX) == Ok(Some(img))
                               && Decode(r.outcome.value[INITIAL_LABEL]) == Ok(img)
  {
    if |suffix| > 0 {
      var b := BackendOf(engine);
      var positive := PositivePrompt(params, suffix);
      InitialReference();
      AvatarInitialValue(b, template, dir, positive, negative, listing);
      var init := InitialStage(b, template, positive, negative);
      var wf := GetWorkflow(template, Parameters(positive, negative, INITIAL_REFERENCE));
      if init.outcome.Ok? {
        assert wf.Ok?;
        assert init.outcome == GenerateEncoded(engine, wf.value);
        var img :| GenerateImg(engine, wf.value, OUTPUT_PREFIX) == Ok(Some(img));
        assert Decode(init.outcome.value) == Ok(img);
      }
    }
  }

  /** Each stage's image ends up under its file's label in a completed run. */
  lemma AssemblePoseValues(initial: Run<string>, stage: string -> Run<string>, files: seq<string>)
    requires forall f :: f in files ==> '/' !in f
    ensures var r := Assemble(initial, RunStages(stage, DefinedPoses(), files));
            r.outcome.Ok? ==>
              forall f :: f in files && InCatalog(DefinedPoses(), f) ==>
                && stage(f).outcome.Ok?
                && Label(DefinedPoses(), f) in r.outcome.value
                && r.outcome.value[Label(DefinedPoses(), f)] == stage(f).outcome.value
  {
    var rest := RunStages(stage, DefinedPoses(), files);
    if initial.outcome.Ok? && rest.outcome.Ok? {
      CatalogLabels();
      RunStagesValues(stage, DefinedPoses(), files);
      RunStagesKeys(stage, DefinedPoses(), files);
      assert INITIAL_LABEL !in rest.outcome.value;
    }
  }

  /** Each catalog pose's image is stored under its label: the labels are
      distinct and differ from the initial pose's key, so nothing is
      overwritten. */
  lemma AvatarPoseValues(b: Backend, template: Workflow, dir: string, positive: string, negative: string, listing: seq<string>)
    requires forall f :: f in listing ==> '/' !in f
    ensures var r := AvatarRun(b, template, dir, positive, negative, listing);
            r.outcome.Ok? ==>
              forall f :: f in listing && EndsWith(f, ".jpg") && InCatalog(DefinedPoses(), f) ==>
                && PoseStage(b, template, dir, positive, negative, f).outcome.Ok?
                && Label(DefinedPoses(), f) in r.outcome.value
                && r.outcome.value[Label(DefinedPoses(), f)] == PoseStage(b, template, dir, positive, negative, f).outcome.value
  {
    AssemblePoseValues(InitialStage(b, template, positive, negative), PoseStages(b, template, dir, positive, negative), PoseFiles(listing));
  }

  /** A run uploads before each generation when its initial stage and every
      stage of its loop do. */
  lemma AssembleLog(initial: Run<string>, stage: string -> Run<string>, files: seq<string>)
    requires UploadThenGenerate(initial.log) && forall f :: UploadThenGenerate(stage(f).log)
    ensures UploadThenGenerate(Assemble(initial, RunStages(stage, DefinedPoses(), files)).log)
  {
    RunStagesLog(stage, DefinedPoses(), files);
    ConcatUploadThenGenerate(initial.log, RunStages(stage, DefinedPoses(), files).log);
  }

  /** Every generation comes right after the upload of its reference image. */
  lemma AvatarUploadsFirst(b: Backend, template: Workflow, dir: string, positive: string, negative: string, listing: seq<string>)
    ensures UploadThenGenerate(AvatarRun(b, template, dir, positive, negative, listing).log)
  {
    AssembleLog(InitialStage(b, template, positive, negative), PoseStages(b, template, dir, positive, negative), PoseFiles(listing));
  }

  /** The uploads and reference images of a completed run: the initial
      stage's, then each looped stage's in loop order. */
  lemma AssembleOrder(initial: Run<string>, stage: string -> Run<string>, files: seq<string>,
                            up: string, ref: Option<Json>, path: string -> string, refOf: string -> Option<Json>)
    requires initial.outcome.Ok? ==> Uploads(initial.log) == [up] && References(initial.log) == [ref]
    requires forall f :: stage(f).outcome.Ok? ==> Uploads(stage(f).log) == [path(f)] && References(stage(f).log) == [refOf(f)]
    ensures var r := Assemble(initial, RunStages(stage, DefinedPoses(), files));
            var ran := Selected(DefinedPoses(), files);
            r.outcome.Ok? ==>
              && Uploads(r.log) == [up] + Apply(path, ran)
              && References(r.log) == [ref] + Apply(refOf, ran)
  {
    var rest := RunStages(stage, DefinedPoses(), files);
    if initial.outcome.Ok? && rest.outcome.Ok? {
      RunStagesUploads(stage, DefinedPoses(), files, path);
      RunStagesReferences(stage, DefinedPoses(), files, refOf);
      UploadsConcat(initial.log, rest.log);
      ReferencesConcat(initial.log, rest.log);
    }
  }

  /** A complete run uploads the initial pose and then the catalog poses in
      sorted order, and generates from their basenames in the same order. */
  lemma AvatarOrder(b: Backend, template: Workflow, dir: string, positive: string, negative: string, listing: seq<string>)
    ensures var r := AvatarRun(b, template, dir, positive, negative, listing);
            var poses := Selected(DefinedPoses(), PoseFiles(listing));
            r.outcome.Ok? ==>
              && Uploads(r.log) == [InitialPose()] + Apply(f => Join(dir, f), poses)
              && References(r.log) == [Some(JStr(INITIAL_REFERENCE))] + Apply(f => Some(JStr(Basename(f))), poses)
  {
    PoseStagesActions(b, template, dir, positive, negative);
    InitialStageActions(b, template, positive, negative);
    AssembleOrder(InitialStage(b, template, positive, negative), PoseStages(b, template, dir, positive, negative), PoseFiles(listing),
                            InitialPose(), Some(JStr(INITIAL_REFERENCE)), f => Join(dir, f), f => Some(JStr(Basename(f))));
  }
}

=== FILE: results.dfy ===
/** Outcomes of the modelled Python calls.

A call either returns a value, raises one of the Python exceptions below, or
never returns at all (a loop that keeps waiting for a message the engine never
sends). All three are failure-compatible with `:-`, so a chain of calls stops at
the first one that does not return normally, exactly as an uncaught exception
(or a blocked call) stops the Python code.
 */
module Results {

  datatype Option<+T> = None | Some(value: T)

  /** The exceptions the modelled code can raise, by Python class. */
  datatype Error =
    | KeyError(key: string)          // subscript of a dict that lacks the key
    | TypeError                      // subscript or operation on a value of the wrong type
    | AttributeError                 // `.get` on a value that is not a dict
    | IndexError                     // `[0]` on an empty list or string
    | ValueError(message: string)    // an explicit `raise ValueError(...)` or a refused argument
    | NonStringKeyError              // a dict lookup with a hashable key that is not a string
    | RequestFailed                  // `Exception("Failed to communicate with LLM service: ...")`
    | DecodeError                    // `binascii.Error` from `base64.b64decode`
    | ConnectionClosed               // `websockets`' `ConnectionClosed` from `recv` on a closed socket

  /** `Ok(v)`: returned `v`; `Err(e)`: raised `e`; `Stalled`: never returns. */
  datatype Result<+T> = Ok(value: T) | Err(error: Error) | Stalled {

    predicate IsFailure() {
      !Ok?
    }

    function PropagateFailure<U>(): Result<U>
      requires !Ok?
    {
      if Err? then Err(error) else Stalled
    }

    function Extract(): T
      requires Ok?
    {
      value
    }
  }
}

=== FILE: strings.dfy ===
/** The Python `str` operations the services rely on: substring search (`in`),
`split(sep)[0]` and `split(sep)[1]`, `endswith`, ASCII `lower`, the ordering
that `sorted` uses, and `os.path.basename` / `os.path.join` on POSIX paths.
 */
module Strings {
  import opened Results

  /** `sub` occurs in `s` starting at index `i`. */
  predicate OccursAt(s: string, sub: string, i: nat) {
    i + |sub| <= |s| && s[i..i + |sub|] == sub
  }

  /** The first index at or after `from` at which `sub` occurs in `s`. */
  function FindFrom(s: string, sub: string, from: nat): (r: Option<nat>)
    decreases |s| - from
    ensures r.Some? ==> from <= r.value && OccursAt(s, sub, r.value)
    ensures r.Some? ==> forall j: nat :: from <= j < r.value ==> !OccursAt(s, sub, j)
    ensures r.None? ==> forall j: nat :: from <= j ==> !OccursAt(s, sub, j)
  {
    if from + |sub| > |s| then None
    else if s[from..from + |sub|] == sub then Some(from)
    else FindFrom(s, sub, from + 1)
  }

  /** `s.find(sub)`, with `None` for Python's -1. */
  function FindFirst(s: string, sub: string): (r: Option<nat>)
    ensures r.Some? ==> OccursAt(s, sub, r.value)
    ensures r.Some? ==> forall j: nat :: j < r.value ==> !OccursAt(s, sub, j)
    ensures r.None? ==> forall j: nat :: !OccursAt(s, sub, j)
  {
    FindFrom(s, sub, 0)
  }

  /** Python's `sub in s`. */
  function Contains(s: string, sub: string): (b: bool)
    ensures b <==> exists j: nat :: OccursAt(s, sub, j)
  {
    FindFirst(s, sub).Some?
  }

  /** A string without the character `c` contains no string that has `c`. */
  lemma MissingCharacter(s: string, sub: string, k: nat)
    requires k < |sub| && sub[k] !in s
    ensures !Contains(s, sub)
  {
    forall j: nat
      ensures !OccursAt(s, sub, j)
    {
      if j + |sub| <= |s| {
        assert s[j..j + |sub|][k] == s[j + k];
      }
    }
  }

  /** No occurrence lies wholly before the first one. */
  lemma HeadHasNoOccurrence(s: string, sub: string, i: nat)
    requires |sub| > 0 && FindFirst(s, sub) == Some(i)
    ensures i <= |s| && !Contains(s[..i], sub)
  {
    forall j: nat
      ensures !OccursAt(s[..i], sub, j)
    {
      if j + |sub| <= i {
        assert !OccursAt(s, sub, j);
        assert s[..i][j..j + |sub|] == s[j..j + |sub|];
      }
    }
  }

  /** `s.split(sep)[0]`: the text before the first `sep`, or all of `s` when
      `sep` does not occur. */
  function SplitHead(s: string, sep: string): (r: string)
    requires |sep| > 0
    ensures r <= s
    ensures !Contains(r, sep)
    ensures Contains(s, sep) ==> OccursAt(s, sep, |r|)
    ensures Contains(s, sep) ==> FindFirst(s, sep) == Some(|r|)
    ensures !Contains(s, sep) ==> r == s
  {
    match FindFirst(s, sep)
    case None => s
    case Some(i) =>
      HeadHasNoOccurrence(s, sep, i);
      s[..i]
  }

  /** The text that follows the first `sep` in `s`. */
  function AfterFirst(s: string, sep: string): (r: string)
    requires |sep| > 0 && Contains(s, sep)
    ensures s == SplitHead(s, sep) + sep + r
  {
    var i := |SplitHead(s, sep)|;
    assert s == s[..i] + s[i..i + |sep|] + s[i + |sep|..];
    s[i + |sep|..]
  }

  /** `s.split(sep)[1]`, which exists exactly when `sep` occurs in `s`: the
      text between the first and the second `sep`, or up to the end. */
  function SplitSecond(s: string, sep: string): (r: string)
    requires |sep| > 0 && Contains(s, sep)
    ensures !Contains(r, sep)
    ensures r <= AfterFirst(s, sep)
    ensures !Contains(AfterFirst(s, sep), sep) ==> r == AfterFirst(s, sep)
    ensures Contains(AfterFirst(s, sep), sep) ==> FindFirst(AfterFirst(s, sep), sep) == Some(|r|)
  {
    SplitHead(AfterFirst(s, sep), sep)
  }

  /** When `sep` occurs at `i` and nowhere before, `split(sep)` cuts there. */
  lemma SplitAtFirst(s: string, sep: string, i: nat)
    requires |sep| > 0 && OccursAt(s, sep, i)
    requires forall j: nat :: j < i ==> !OccursAt(s, sep, j)
    ensures Contains(s, sep)
    ensures SplitHead(s, sep) == s[..i]
    ensures AfterFirst(s, sep) == s[i + |sep|..]
  {
    var k := FindFirst(s, sep).value;
    assert k == i;
  }

  /** Splitting the head again changes nothing: the head has no `sep`. */
  lemma SplitHeadIdempotent(s: string, sep: string)
    requires |sep| > 0
    ensures SplitHead(SplitHead(s, sep), sep) == SplitHead(s, sep)
  {
  }

  /** Python's `s.endswith(suffix)`. */
  predicate EndsWith(s: string, suffix: string) {
    |suffix| <= |s| && s[|s| - |suffix|..] == suffix
  }

  /** Python's `str.lower` on one character (ASCII letters only). */
  function LowerChar(c: char): char {
    if 'A' <= c <= 'Z' then (c as int + 32) as char else c
  }

  /** Python's `str.lower` (ASCII letters only). */
  function Lower(s: string): (r: string)
    ensures |r| == |s|
    ensures forall i :: 0 <= i < |s| ==> r[i] == LowerChar(s[i])
  {
    seq(|s|, i requires 0 <= i < |s| => LowerChar(s[i]))
  }

  /** Python's `a <= b` on `str`: code point order, a proper prefix first. */
  predicate Below(a: string, b: string)
    decreases |a|
  {
    |a| == 0 || (|b| > 0 && (a[0] < b[0] || (a[0] == b[0] && Below(a[1..], b[1..]))))
  }

  lemma {:induction false} BelowTotal(a: string, b: string)
    ensures Below(a, b) || Below(b, a)
    decreases |a|
  {
    if |a| > 0 && |b| > 0 && a[0] == b[0] {
      BelowTotal(a[1..], b[1..]);
    }
  }

  lemma {:induction false} BelowTransitive(a: string, b: string, c: string)
    requires Below(a, b) && Below(b, c)
    ensures Below(a, c)
    decreases |a|
  {
    if |a| > 0 && a[0] == b[0] && b[0] == c[0] {
      BelowTransitive(a[1..], b[1..], c[1..]);
    }
  }

  lemma {:induction false} BelowAntisymmetric(a: string, b: string)
    requires Below(a, b) && Below(b, a)
    ensures a == b
    decreases |a|
  {
    if |a| > 0 {
      BelowAntisymmetric(a[1..], b[1..]);
      assert a == [a[0]] + a[1..] && b == [b[0]] + b[1..];
    }
  }

  ghost predicate Sorted(s: seq<string>) {
    forall i, j :: 0 <= i < j < |s| ==> Below(s[i], s[j])
  }

  /** Inserts `x` into the sorted `s` at its place. */
  function Insert(x: string, s: seq<string>): (r: seq<string>)
    requires Sorted(s)
    ensures Sorted(r)
    ensures multiset(r) == multiset(s) + multiset{x}
  {
    if |s| == 0 then [x]
    else if Below(x, s[0]) then
      BelowsFirst(x, s);
      [x] + s
    else
      BelowTotal(x, s[0]);
      var rest := Insert(x, s[1..]);
      assert s == [s[0]] + s[1..];
      HeadBelowsAll(s[0], x, s[1..], rest);
      [s[0]] + rest
  }

  lemma BelowsFirst(x: string, s: seq<string>)
    requires Sorted(s) && |s| > 0 && Below(x, s[0])
    ensures Sorted([x] + s)
  {
    forall i, j | 0 <= i < j < |[x] + s|
      ensures Below(([x] + s)[i], ([x] + s)[j])
    {
      if i == 0 && j > 1 {
        BelowTransitive(x, s[0], s[j - 1]);
      }
    }
  }

  lemma HeadBelowsAll(h: string, x: string, s: seq<string>, rest: seq<string>)
    requires Sorted(s) && Sorted(rest) && Below(h, x)
    requires forall k :: 0 <= k < |s| ==> Below(h, s[k])
    requires multiset(rest) == multiset(s) + multiset{x}
    ensures Sorted([h] + rest)
  {
    forall k | 0 <= k < |rest|
      ensures Below(h, rest[k])
    {
      assert rest[k] in multiset(rest);
      if rest[k] != x {
        assert rest[k] in multiset(s);
        var m :| 0 <= m < |s| && s[m] == rest[k];
      }
    }
  }

  /** Python's `sorted` on a list of `str`. */
  function Sort(s: seq<string>): (r: seq<string>)
    ensures Sorted(r)
    ensures multiset(r) == multiset(s)
  {
    if |s| == 0 then []
    else
      assert s == [s[0]] + s[1..];
      Insert(s[0], Sort(s[1..]))
  }

  /** `os.path.basename` on a POSIX path: the longest suffix without a '/'. */
  function Basename(p: string): (r: string)
    ensures '/' !in r
  {
    if |p| == 0 || p[|p| - 1] == '/' then ""
    else Basename(p[..|p| - 1]) + [p[|p| - 1]]
  }

  /** The basename is a suffix of the path, and what precedes it, if
      anything, is a '/': it is the longest suffix without one. */
  lemma {:induction false} BasenameIsSuffix(p: string)
    ensures var r := Basename(p);
            && |r| <= |p| && r == p[|p| - |r|..]
            && (|r| < |p| ==> p[|p| - |r| - 1] == '/')
  {
    if |p| > 0 && p[|p| - 1] != '/' {
      var init := p[..|p| - 1];
      BasenameIsSuffix(init);
      var r0 := Basename(init);
      assert Basename(p) == r0 + [p[|p| - 1]];
      assert p[|p| - |r0| - 1..] == init[|init| - |r0|..] + [p[|p| - 1]];
    }
  }

  /** Whatever follows a '/' (or starts the path) is the whole basename,
      provided it holds no '/' itself. */
  lemma BasenameAfterSeparator(dir: string, name: string)
    requires |dir| == 0 || dir[|dir| - 1] == '/'
    ensures '/' !in name ==> Basename(dir + name) == name
  {
    if '/' !in name {
      BasenameOfTail(dir, name);
    }
  }

  lemma {:induction false} BasenameOfTail(dir: string, name: string)
    requires |dir| == 0 || dir[|dir| - 1] == '/'
    requires '/' !in name
    ensures Basename(dir + name) == name
  {
    if |name| == 0 {
      assert dir + name == dir;
    } else {
      var init := name[..|name| - 1];
      assert (dir + name)[..|dir + name| - 1] == dir + init;
      BasenameOfTail(dir, init);
      assert name == init + [name[|name| - 1]];
    }
  }

  /** The basename of a path ending in `tail` is the basename of `tail`,
      when `tail` holds a '/' or follows a '/' (or the start). */
  lemma {:induction false} BasenameOfSuffix(x: string, tail: string)
    requires '/' in tail || |x| == 0 || x[|x| - 1] == '/'
    ensures Basename(x + tail) == Basename(tail)
    decreases |tail|
  {
    if |tail| == 0 {
      assert x + tail == x;
    } else if tail[|tail| - 1] != '/' {
      var init := tail[..|tail| - 1];
      assert '/' in tail ==> '/' in init by {
        if '/' in tail {
          var k :| 0 <= k < |tail| && tail[k] == '/';
          assert init[k] == '/';
        }
      }
      BasenameOfSuffix(x, init);
      InitOfConcat(x, tail);
      BasenameLast(x + tail);
      BasenameLast(tail);
    } else {
      assert (x + tail)[|x + tail| - 1] == '/';
    }
  }

  /** Dropping the last character of `x + tail` drops the last of `tail`. */
  lemma InitOfConcat(x: string, tail: string)
    requires |tail| > 0
    ensures (x + tail)[..|x + tail| - 1] == x + tail[..|tail| - 1]
    ensures (x + tail)[|x + tail| - 1] == tail[|tail| - 1]
  {
  }

  /** A last character other than '/' extends the basename of the rest. */
  lemma BasenameLast(p: string)
    requires |p| > 0 && p[|p| - 1] != '/'
    ensures Basename(p) == Basename(p[..|p| - 1]) + [p[|p| - 1]]
  {
  }

  /** A name without '/' is its own basename. */
  lemma PlainBasename(name: string)
    requires '/' !in name
    ensures Basename(name) == name
  {
    BasenameOfTail("", name);
    assert "" + name == name;
  }

  /** `os.path.join(dir, name)` on POSIX paths. */
  function Join(dir: string, name: string): (r: string)
    ensures Basename(r) == Basename(name)
  {
    if |name| > 0 && name[0] == '/' then name
    else if |dir| == 0 || dir[|dir| - 1] == '/' then
      BasenameOfSuffix(dir, name);
      dir + name
    else
      var d := dir + "/";
      BasenameOfSuffix(d, name);
      d + name
  }
}

=== FILE: workflow.dfy ===
/** The workflow template patch of the ComfyUI client.

A workflow is a JSON object from node id to node specification. Building a job
copies the template and overwrites exactly three slots, chosen by the fixed
mapping: the text input of the positive-prompt node, the text input of the
negative-prompt node and the image input of the reference-image node.
 */
module Workflow {
  import opened Results
  import opened JsonValues

  type Workflow = map<string, Json>

  datatype Parameters = Parameters(positivePrompt: string, negativePrompt: string, referenceImg: string)

  /** Which node receives which parameter. */
  datatype ParametersMapping = ParametersMapping(positivePrompt: string, negativePrompt: string, referenceImg: string)

  const MAPPING := ParametersMapping("7", "9", "10")

  const INPUTS := "inputs"
  const TEXT := "text"
  const IMAGE := "image"

  /** `wf[node]["inputs"]` exists and is an object, so a slot of it can be set. */
  predicate HasInputs(wf: Workflow, node: string) {
    node in wf && wf[node].JObj? && INPUTS in wf[node].fields && wf[node].fields[INPUTS].JObj?
  }

  function InputsOf(wf: Workflow, node: string): map<string, Json>
    requires HasInputs(wf, node)
  {
    wf[node].fields[INPUTS].fields
  }

  /** The value at `wf[node]["inputs"][key]`, when that path exists. */
  function Slot(wf: Workflow, node: string, key: string): Option<Json> {
    if HasInputs(wf, node) && key in InputsOf(wf, node) then Some(InputsOf(wf, node)[key]) else None
  }

  /** In `node`, only the input `key` may differ between `wf` and `r`: the
      node's other fields and its other inputs are equal, and no input
      other than `key` appears or disappears. */
  ghost predicate OnlyInputDiffers(wf: Workflow, r: Workflow, node: string, key: string) {
    && HasInputs(wf, node) && HasInputs(r, node)
    && r[node].fields.Keys == wf[node].fields.Keys
    && (forall f :: f in wf[node].fields && f != INPUTS ==> r[node].fields[f] == wf[node].fields[f])
    && InputsOf(r, node).Keys == InputsOf(wf, node).Keys + {key}
    && (forall k :: k in InputsOf(wf, node) && k != key ==> InputsOf(r, node)[k] == InputsOf(wf, node)[k])
  }

  /** Python's `wf[node]["inputs"][key] = value`, applied to a copy: a
      missing node or `inputs` raises `KeyError`, a node or `inputs` that is
      not an object raises `TypeError`. */
  function SetInput(wf: Workflow, node: string, key: string, value: string): (r: Result<Workflow>)
    ensures r.Ok? <==> HasInputs(wf, node)
    ensures node !in wf ==> r == Err(KeyError(node))
    ensures !r.Stalled?
    ensures r.Ok? ==> r.value.Keys == wf.Keys
    ensures r.Ok? ==> forall n :: n in wf && n != node ==> r.value[n] == wf[n]
    ensures r.Ok? ==> OnlyInputDiffers(wf, r.value, node, key)
    ensures r.Ok? ==> Slot(r.value, node, key) == Some(JStr(value))
  {
    if node !in wf then Err(KeyError(node))
    else
      match wf[node]
      case JObj(fields) =>
        if INPUTS !in fields then Err(KeyError(INPUTS))
        else (
          match fields[INPUTS]
          case JObj(inputs) => Ok(wf[node := JObj(fields[INPUTS := JObj(inputs[key := JStr(value)])])])
          case _ => Err(TypeError))
      case _ => Err(TypeError)
  }

  /** `node` is one of the three nodes the mapping names. */
  predicate IsMapped(node: string) {
    node == MAPPING.positivePrompt || node == MAPPING.negativePrompt || node == MAPPING.referenceImg
  }

  /** Every node other than the three mapped ones is unchanged, and in each
      mapped node only its mapped input may differ. */
  ghost predicate OnlySlotsDiffer(template: Workflow, r: Workflow) {
    && r.Keys == template.Keys
    && (forall n :: n in template && !IsMapped(n) ==> r[n] == template[n])
    && OnlyInputDiffers(template, r, MAPPING.positivePrompt, TEXT)
    && OnlyInputDiffers(template, r, MAPPING.negativePrompt, TEXT)
    && OnlyInputDiffers(template, r, MAPPING.referenceImg, IMAGE)
  }

  /** The three parameters can be read back from their slots. */
  predicate ReadsBack(wf: Workflow, p: Parameters) {
    && Slot(wf, MAPPING.positivePrompt, TEXT) == Some(JStr(p.positivePrompt))
    && Slot(wf, MAPPING.negativePrompt, TEXT) == Some(JStr(p.negativePrompt))
    && Slot(wf, MAPPING.referenceImg, IMAGE) == Some(JStr(p.referenceImg))
  }

  /** All three mapped nodes can be patched. */
  predicate Patchable(template: Workflow) {
    && HasInputs(template, MAPPING.positivePrompt)
    && HasInputs(template, MAPPING.negativePrompt)
    && HasInputs(template, MAPPING.referenceImg)
  }

  /** `ComfyUIAPI.get_workflow`: a patched copy of the template, from which
      the parameters read back. */
  function GetWorkflow(template: Workflow, p: Parameters): (r: Result<Workflow>)
    ensures r.Ok? <==> Patchable(template)
    ensures !r.Stalled?
    ensures r.Ok? ==> ReadsBack(r.value, p)
  {
    var w1 :- SetInput(template, MAPPING.positivePrompt, TEXT, p.positivePrompt);
    var w2 :- SetInput(w1, MAPPING.negativePrompt, TEXT, p.negativePrompt);
    SetInput(w2, MAPPING.referenceImg, IMAGE, p.referenceImg)
  }

  /** The first missing node, in patch order, is the `KeyError`. */
  lemma GetWorkflowErrors(template: Workflow, p: Parameters)
    ensures MAPPING.positivePrompt !in template ==> GetWorkflow(template, p) == Err(KeyError(MAPPING.positivePrompt))
    ensures HasInputs(template, MAPPING.positivePrompt) && MAPPING.negativePrompt !in template ==>
              GetWorkflow(template, p) == Err(KeyError(MAPPING.negativePrompt))
    ensures (HasInputs(template, MAPPING.positivePrompt) && HasInputs(template, MAPPING.negativePrompt)
             && MAPPING.referenceImg !in template) ==>
              GetWorkflow(template, p) == Err(KeyError(MAPPING.referenceImg))
  {
  }

  /** Nothing but the three slots changes. */
  lemma GetWorkflowKeepsTemplate(template: Workflow, p: Parameters)
    ensures GetWorkflow(template, p).Ok? ==> OnlySlotsDiffer(template, GetWorkflow(template, p).value)
  {
  }

  /** Patching a patched workflow gives what patching the template gives:
      only the three slots depend on the parameters. */
  lemma LastPatchWins(template: Workflow, p1: Parameters, p2: Parameters)
    requires GetWorkflow(template, p1).Ok?
    ensures GetWorkflow(GetWorkflow(template, p1).value, p2) == GetWorkflow(template, p2)
  {
    var w := GetWorkflow(template, p1).value;
    var a := GetWorkflow(w, p2).value;
    var b := GetWorkflow(template, p2).value;
    GetWorkflowKeepsTemplate(template, p1);
    GetWorkflowKeepsTemplate(w, p2);
    GetWorkflowKeepsTemplate(template, p2);
    SamePatch(template, w, a, b, p2);
  }

  /** A workflow that differs from `template` only in the slots, patched with
      `p`, equals `template` patched with `p`. */
  lemma SamePatch(template: Workflow, w: Workflow, a: Workflow, b: Workflow, p: Parameters)
    requires OnlySlotsDiffer(template, w)
    requires OnlySlotsDiffer(w, a) && ReadsBack(a, p)
    requires OnlySlotsDiffer(template, b) && ReadsBack(b, p)
    ensures a == b
  {
    SameSlots(template, w, a, b, MAPPING.positivePrompt, TEXT, p.positivePrompt);
    SameSlots(template, w, a, b, MAPPING.negativePrompt, TEXT, p.negativePrompt);
    SameSlots(template, w, a, b, MAPPING.referenceImg, IMAGE, p.referenceImg);
    assert a.Keys == b.Keys;
    forall n | n in a && !IsMapped(n)
      ensures a[n] == b[n]
    {
      assert a[n] == w[n];
    }
  }

  /** Two workflows agree on a mapped node when both patch the same template
      node with the same value. */
  lemma SameSlots(template: Workflow, w: Workflow, a: Workflow, b: Workflow, node: string, key: string, v: string)
    requires OnlyInputDiffers(template, w, node, key)
    requires OnlyInputDiffers(w, a, node, key) && OnlyInputDiffers(template, b, node, key)
    requires Slot(a, node, key) == Some(JStr(v)) && Slot(b, node, key) == Some(JStr(v))
    ensures a[node] == b[node]
  {
    assert InputsOf(a, node) == InputsOf(b, node);
    assert a[node].fields == b[node].fields;
  }

  /** Patching twice with the same parameters changes nothing more. */
  lemma PatchIdempotent(template: Workflow, p: Parameters)
    requires GetWorkflow(template, p).Ok?
    ensures GetWorkflow(GetWorkflow(template, p).value, p) == GetWorkflow(template, p)
  {
    LastPatchWins(template, p, p);
  }
}
